=== FILE: README.md ===
# ForumForAll — a Dafny model of its handlers

ForumForAll is a small Go web forum backed by MySQL. Users register and log in, and a JWT in the
`token_form` cookie identifies them. They create topics tagged with themes, list the topics
(filtered by a tag, sorted by likes, dislikes or date), like or dislike topics, and post messages.

This project models the decision rules inside the HTTP handlers, with in-memory tables in place
of the database:

- **Votes** (`handlers/forum.go`). The like/dislike toggle is a three-state machine
  (NoVote, Liked, Disliked) over a table of vote rows, read with a single-row lookup and changed
  by one INSERT, UPDATE or DELETE. The topic like and dislike counts are counts of those rows.
- **Forum** (`handlers/forum.go`).
  - Request validation and responses of the like and dislike handlers.
  - The topic fetch (400/400/404).
  - The unrouted JSON topic-creation, topic-listing and message handlers.
- **Tags** (`main.go`).
  - Selected tags are stored joined by `", "`.
  - The listing's WHERE clause is three SQL `LIKE` patterns plus one equality. The model
    includes a LIKE matcher with `%`, `_` and backslash escapes.
  - The main theorem: for comma-free, wildcard-free tags, the filter accepts exactly the members
    of the joined list.
- **Pages** (`main.go`).
  - The listing: filter, sort key, viewer name and theme flags.
  - The form topic-creation handler and the live message handler.
  - `contains`, the root route, and the wiring of protected routes behind `AuthMiddleware`.
- **Auth** (`handlers/auth.go`).
  - Registration checks in order, the first failure winning.
  - Login failures that do not reveal whether the user exists.
  - Token claims and expiry, logout, and the middleware's gate decision.
- **Themes** (`config/themes.go`): the constant table of 20 themes.
- **Text**, **Sorting**, **Store**, **Tokens**, **Http**, **Wrappers** support the above:
  - Go's `len` (UTF-8 bytes) and `strconv.Atoi` (int64 range).
  - `ORDER BY … DESC` as a sorted permutation.
  - The tables as sequences.
  - The token primitives.

Foreign code is passed in as function values of `Tokens.Crypto`: HS256 signing and parsing
(jwt-go) and bcrypt. Wall-clock time is an integer parameter in Unix seconds. A token verifies
when parsing succeeds and its `exp` claim has not passed (section 4.1.4 of RFC 7519). An `exp`
of 0 means no expiry, as in jwt-go v3.

Routing, as `main` sets it up:

- Protected routes: `/index`, `/topic`, `/topics`, `/api/messages`, `/logout`, `/api/topic`,
  `/api/topic/like` and `/api/topic/dislike`, each behind the gate `AuthMiddleware`.
- `/api/topic` lets every method through the gate; the route then sends GET to
  `GetTopicHandler` and answers 405 to any other method.
- The `/api/messages` route is served by main.go's `createMessageHandler`, which has no
  empty-content check.
- The forum package's `CreateMessageHandler`, `GetMessagesHandler`, `CreateTopicHandler` and
  `GetTopicsHandler` are not routed. They are modelled as written and marked "not routed".

A filter on `art` does not list a topic tagged `startup`, because the patterns are bounded by
`", "` (`Tags.SubstringIsNotMatched`).

## Model

| member | source | states |
|---|---|---|
| Votes.Toggle | handlers/forum.go:259-270 | a like or dislike clears the vote exactly when it already holds that vote, and otherwise sets it to that vote |
| Votes.Lookup | handlers/forum.go:251-252 | the single-row read finds nothing exactly when the pair has no row, otherwise the flag of one of the pair's rows |
| Votes.Without | handlers/forum.go:262 | the DELETE leaves no row for the pair and never adds rows |
| Votes.ApplyFollowsToggle | handlers/forum.go:259-270 | the statement chosen (delete, update or insert) moves the pair's state as the transition table says, for like and for dislike (handlers/forum.go:328-339) |
| Votes.ApplyKeepsOtherRows | handlers/forum.go:262-269 | the rows of every other (user, topic) pair are exactly what they were |
| Votes.ApplyKeepsOtherPairs | handlers/forum.go:331-338 | every other pair's vote and row count are unchanged |
| Votes.ApplyInsertsOnlyWhenAbsent | handlers/forum.go:252-269 | the table grows exactly when the pair has no row, and then by the one new row with the action's flag |
| Votes.ApplyKeepsPairSingle | handlers/forum.go:259-270 | a pair with at most one row still has at most one after the statement |
| Votes.ApplyPreservesAtMostOne | handlers/forum.go:321-339 | "at most one vote row per (user, topic)" is an invariant of every like and dislike |
| Votes.ApplyTwiceFromNoVote | handlers/forum.go:259-270 | from no vote, the same action twice gives back the very same table |
| Votes.ApplyAllFollowsToggle | handlers/forum.go:252-270 | after any sequence of actions by one user on one topic: the state is the folded transition, the invariant holds, other pairs are untouched |
| Votes.DoublePressRetracts | handlers/forum.go:328-339 | liking twice, or disliking twice, from no vote returns to no vote |
| Votes.TallySplit | handlers/forum.go:40-41 | a topic's count splits into the pair's own rows plus everyone else's |
| Votes.PairTallyOfSingle | handlers/forum.go:115-116 | with at most one row, the pair contributes 1 to the count of its current vote and 0 otherwise |
| Votes.ApplyTallyDelta | handlers/forum.go:40-41 | a vote changes only its topic's counts, by +1 on insert, a 1-for-1 swap on a flip and -1 on a retraction |
| Votes.WithoutOtherLookup | handlers/forum.go:262 | deleting one pair's rows leaves every other pair's lookup unchanged |
| Votes.SetLikedLookup | handlers/forum.go:265 | the UPDATE changes only the pair's flag as read back |
| Votes.AppendLookup | handlers/forum.go:269 | after an INSERT, a pair that had no row reads the new row's flag |
| Forum.Authenticate | handlers/forum.go:234-248 | a missing cookie is 401 "Not authenticated", a token that does not verify is 401 "Invalid token", otherwise the token's claims |
| Forum.VoteTopic | handlers/forum.go:214-281 | checks in order (405, 400 missing id, 400 non-integer id, 401, 401); a rejection leaves every table alone; an admitted request runs the toggle for the token's user and redirects to the Referer (also handlers/forum.go:283-350) |
| Forum.VoteTopicToggles | handlers/forum.go:250-270 | an admitted request moves the requester's vote by the transition, keeps one row per pair, and changes no other pair |
| Forum.GetTopic | handlers/forum.go:79-141 | empty id 400, non-integer 400, unknown topic 404; an existing topic is returned exactly when its author row is found, and is otherwise 500 "Error processing topic data"; a topic returned exists and its counts are its vote rows |
| Forum.GetTopics | handlers/forum.go:36-77 | not routed: every joined topic, as a permutation sorted newest first |
| Forum.CreateTopicJson | handlers/forum.go:143-212 | not routed: bad JSON 400; user id 0 becomes 1; unknown author 400; on success exactly one topic appended, the author's counter bumped, the topic counter advanced by one and the other counters unchanged; the echo carries the new id and username |
| Forum.GetMessages | handlers/forum.go:352-407 | not routed: 405/400/400 in order; the topic's joined messages as a permutation, oldest first |
| Forum.CreateMessageChecked | handlers/forum.go:409-456 | not routed: 405, 401, 401, then empty content or topic id 400, then a topic id the store refuses 500; it succeeds exactly for a POST with a valid token, non-empty content and an integer topic id, and a stored message is never empty |
| Store.UserById | handlers/forum.go:158-170 | no user is found exactly when no row has the id, and a found row has the id |
| Store.UserByName | handlers/auth.go:74-79 | no user is found exactly when no row has the name, and a found row has the name |
| Store.TopicById | handlers/forum.go:98-110 | the existence check finds nothing exactly when no topic row has the id |
| Store.BumpTopicCount | main.go:403 | the author's rows gain one topic, every other row is unchanged |
| Store.TouchLastConnection | handlers/auth.go:99 | only the logged-in user's last connection changes, to the login time |
| Store.BumpAddsIdCount | main.go:403 | the counter update raises the sum of counters by the number of rows selected by id |
| Store.UniqueIdCount | main.go:403 | under a primary key an id selects one row when some user holds it, none otherwise |
| Store.ViewOf | handlers/forum.go:113-119 | the inner join drops a topic without an author; a joined row carries the topic's id, title, description, tags, author id, state and creation time, and the author's username; likes and dislikes are the topic's vote-row counts per flag |
| Store.ViewsOf | main.go:53-59 | the joined listing holds exactly the views of topics whose author exists, each as many times as rows join to it, and no more rows than the table |
| Store.MessagesOf | handlers/forum.go:371-377 | exactly the topic's messages whose author exists, joined with the author's name, each as many times as rows join to it |
| Store.InsertMessage | main.go:441-449 | the insert succeeds exactly when the topic id reads as an integer and appends one message |
| Tags.LikeLiteral | main.go:91-96 | a wildcard-free pattern head matches literally |
| Tags.LikeStartsWith | main.go:92 | `t, %` matches exactly the strings starting with "t, " |
| Tags.LikeContains | main.go:93 | `%, t, %` matches exactly the strings containing ", t, " |
| Tags.LikeEndsWith | main.go:94 | `%, t` matches exactly the strings ending with ", t" |
| Tags.TagFilterPatterns | main.go:64 | for a wildcard-free tag the WHERE clause is: equal, starts with "t, ", contains ", t, ", or ends with ", t" |
| Tags.JoinedMemberFound | main.go:389-390 | completeness: every tag of a list is found in the list's joined string |
| Tags.PrefixSound | main.go:92 | a join of comma-free tags starting with "t, " has t as its first tag |
| Tags.InfixSound | main.go:93 | a join of comma-free tags containing ", t, " has t among its tags |
| Tags.SuffixSound | main.go:94 | a join of comma-free tags ending with ", t" has t among its tags |
| Tags.ExactSound | main.go:95 | a join of comma-free tags equal to a comma-free t has t among its tags |
| Tags.TagFilterIsMembership | main.go:88-97 | for a non-empty tag free of commas and wildcards, the filter accepts the joined string exactly when the tag is in the list |
| Tags.JoinExamples | main.go:389-390 | ["sport", "musique"] is stored as "sport, musique", and no tags as "" |
| Tags.SubstringIsNotMatched | main.go:91-96 | "art" does not match "startup" but does match "startup, art" |
| Tags.WildcardTagOvermatches | main.go:92 | a selected tag holding `_` matches a join that does not contain it |
| Sorting.Insert | main.go:68-76 | inserting into a descending list keeps it descending and adds exactly that element |
| Sorting.InsertionSort | main.go:68-76 | the result is a permutation of the rows, ordered by the key, largest first |
| Pages.ThemeViews | main.go:163-178 | same length and order as the theme table, each flagged exactly when its id is the selected tag |
| Pages.OneThemeSelected | main.go:176 | at most one theme is flagged, and one is flagged exactly when the tag is a theme id |
| Pages.Matching | main.go:61-65 | an empty tag keeps every row; otherwise exactly the rows the filter accepts, each as many times as in the input |
| Pages.Index | main.go:45-215 | a permutation of the filtered joined topics, sorted by likes, dislikes or date (any other sort value), descending; the viewer's name exactly when the cookie's token verifies; the theme flags |
| Pages.MatchingIsMembership | main.go:64 | the WHERE clause keeps a row whose tags were joined from comma-free tags exactly when the selected theme-like tag is one of them |
| Pages.IndexListsExactlyTagged | main.go:88-100 | with a theme-like tag, a topic whose tags were joined from comma-free tags is listed exactly when the tag is one of them |
| Pages.EmptyTagListsAll | main.go:63-83 | with no tag selected the listing is a permutation of every joined topic |
| Pages.CreateTopicForm | main.go:362-411 | 405, then 401 "Not authenticated" / "Invalid token" with no change; success appends one topic with the joined tags, the token's user and state 1, bumps the author, advances the topic counter by one and leaves the other counters alone, redirects to /index |
| Pages.CreatedTopicListedUnderItsTags | main.go:389-396 | a created topic is listed under a theme-like tag exactly when that tag was selected in the form |
| Pages.CreateTopicCountsOnce | main.go:393-407 | with unique user ids, creating a topic adds exactly one to the topic counters when the author exists; a refusal adds nothing |
| Pages.CreateTopicKeepsIdsFresh | main.go:393-396 | the auto-increment counter stays above every topic id, so a created topic never shares an id with an earlier one |
| Pages.CreateMessage | main.go:413-453 | live: 405, 401, 401, then the insert; a topic id the store refuses is 500 with the driver's error text; stores whatever content is sent and redirects to the topic page |
| Pages.LiveHandlerStoresEmptyMessage | main.go:437-445 | the live handler stores an empty message that the unrouted forum handler refuses with 400 |
| Pages.ContainsString | main.go:218-225 | the scan reports true exactly when the string occurs in the slice |
| Pages.RootRoute | main.go:480-492 | no cookie sends any path to /register; with a cookie "/" goes to /index and every other path is 404 |
| Pages.Guard | main.go:498-513 | a protected handler runs only when the gate says so; otherwise nothing changes, and the answer is the redirect or the dropped connection |
| Pages.VoteRoute | main.go:512-513 | behind the gate as written (`Auth.Gate`): the vote handler runs exactly for a valid token; a missing cookie drops the connection and any other cookie is redirected, the store unchanged |
| Pages.VoteRouteNeedsToken | main.go:512-513 | through the route, votes change only for a valid token, the handler's own 401 cannot occur, and a missing cookie drops the connection |
| Pages.TopicApiRoute | main.go:504-510 | behind the gate as written, every method passes the gate; GET reaches the topic fetch and any other method is 405 |
| Pages.CreateTopicRoute | main.go:500 | behind the gate as written: the form handler runs exactly for a valid token; a missing cookie drops the connection and any other cookie is redirected, the store unchanged |
| Pages.MessageRoute | main.go:501 | behind the gate as written: the live message handler runs exactly for a valid token; a missing cookie drops the connection and any other cookie is redirected, the store unchanged |
| Pages.IntendedGateRedirectsMissingCookie | handlers/auth.go:175-199 | corrected: behind the intended gate the vote route answers as written for every request with a cookie, and redirects a request without one |
| Pages.WritesNeedToken | main.go:500-501 | topics and messages are only added by requests holding a valid token |
| Auth.FirstFailure | handlers/auth.go:133-157 | the first failing check wins: missing field, then mismatch, then fewer than 12 bytes, then username or mail taken |
| Auth.Register | handlers/auth.go:114-173 | non-POST 405; a failing check re-renders the form with its message and inserts nothing; a hash failure re-renders it with the hashing error; success inserts exactly one user with role 1 and redirects to /register |
| Auth.ErrorTextsDistinct | handlers/auth.go:133-162 | the re-rendered form shows a different message for each registration error |
| Auth.RegisterKeepsCredentialsUnique | handlers/auth.go:148-157 | registration never gives two accounts the same username or the same mail address |
| Auth.SecondRegistrationRejected | handlers/auth.go:148-157 | repeating a successful registration is refused as taken and changes nothing |
| Auth.PasswordBoundCountsBytes | handlers/auth.go:143-146 | the bound counts bytes: 11 ASCII characters fail, 6 two-byte characters pass |
| Auth.Login | handlers/auth.go:53-112 | 405, empty field 400 before any lookup; an unknown user or a wrong password is 401 "Nom d'utilisateur ou mot de passe incorrect" with no change; success needs a known user, a matching password and a signed token; a signing failure after a matching password is 500 "Erreur lors de la génération du token"; sets a 24-hour cookie and redirects to /index |
| Auth.LoginFailureIsUniform | handlers/auth.go:75-89 | an unknown user and a wrong password give the same 401 and message, and change nothing |
| Auth.LoginTokenNamesTheUser | handlers/auth.go:104-109 | the login cookie's token verifies to the user's id and name for the next 24 hours |
| Auth.Gate | handlers/auth.go:175-199 | as written: the next handler runs exactly for a present, non-empty, verifying token; a missing cookie aborts the request |
| Auth.GateIntended | handlers/auth.go:175-199 | corrected: the next handler runs exactly for a valid token, and every other request is redirected to /register |
| Auth.GateMissingCookie | handlers/auth.go:177-178 | without a cookie the written gate aborts where the intended one redirects |
| Auth.GateAgreesWithIntended | handlers/auth.go:178-196 | with a cookie present the two gates decide alike |
| Auth.Logout | main.go:455-471 | any other method is 405 "Method not allowed"; only POST logs out: the cookie is overwritten empty on path "/", expiring at the epoch, and the client goes to /register |
| Tokens.IssueClaims | handlers/auth.go:39-47 | the claims carry exactly the given id and username, expiring 24 hours after issue |
| Tokens.Verify | handlers/auth.go:184-196 | a token verifies exactly when it parses and its expiry (0 = none) has not passed, and yields the parsed claims |
| Tokens.IssuedTokenVerifies | handlers/auth.go:39-50 | an issued token verifies to exactly its claims throughout its 24 hours |
| Tokens.IssuedTokenExpires | handlers/auth.go:39-50 | after 24 hours an issued token no longer verifies |
| Themes.LabelOf | config/themes.go:8-27 | a label is found exactly for the theme ids, and it is that theme's label |
| Themes.TableShape | config/themes.go:8-27 | twenty themes, from technologie to societe |
| Themes.IdsAreWords | config/themes.go:8-27 | every id is a lower-case word, so it has no comma, space or LIKE wildcard |
| Themes.IdsDistinct | config/themes.go:8-27 | no two themes share an id |
| Themes.LabelsAreUnique | config/themes.go:16 | each id has exactly one label; "art" is "Art" |
| Text.ByteLength | handlers/auth.go:143 | Go's len: at least the character count and at most four times it, equal to it for ASCII |
| Text.Atoi | handlers/forum.go:227-231 | succeeds exactly for an optional sign and one or more digits whose value fits in int64 |
| Text.AtoiItoa | handlers/forum.go:90-95 | every int64 written in decimal reads back as itself |
| Text.AtoiRejectsEmptyAndSign | handlers/forum.go:227-231 | "", "+", "-" and "12a" are refused; "+7" and "-42" are read |

## Left out

- SQL execution, drivers, connection setup and every query or statement error (the 500 answers
  on store failure) are left out. The exceptions are bcrypt hashing, token signing and the
  integer conversion of a message's topic id, which can fail in the model.
- Forum.TopicJson: the optional `user_like` field of the topic JSON (handlers/forum.go:24) is not
  modelled. The listing and fetch handlers never fill it, but `CreateTopicHandler` decodes the
  request body and encodes it back, so a `user_like` the client sends is echoed.
- HTTP plumbing, template parsing and rendering, static files, JSON encoding and decoding, and
  logging are left out. A body that does not decode is an absent value.
- `registerHandler` (main.go:36-43) only renders a template and is not modelled.
  `topicPageHandler` (main.go:227-360) answers 400 "Topic ID is required" for an empty id
  (main.go:229-231). For an id whose joined query finds no row (an unknown topic, or one whose
  author is gone) it answers 500 with the query's error text (main.go:264-267); otherwise it
  renders the topic page. It is not modelled.
- jwt-go parsing and signing, and bcrypt, are function values of `Tokens.Crypto`. The
  signing-key round trip is the assumption `Tokens.SignatureRoundTrip`.
- MySQL collation is left out. `=` and `LIKE` are compared exactly, not case-insensitively.
- Foreign keys are left out: a vote or message may name a topic that does not exist.
- Store.InsertMessage: the message's topic id arrives as form text. The model inserts it when
  `strconv.Atoi` accepts it and otherwise treats the insert as refused by the store. MySQL's
  lenient string-to-integer conversion is not modelled.
- Concurrency is left out: the lookup-then-insert race in the vote handlers, and the
  non-atomic topic insert followed by the counter update. Requests run one after another.
- A NULL `liked` column is left out. The vote flag is always true or false.
- Tags.TagFilterIsMembership: proved only for tags without `%`, `_` or backslash, which covers
  every theme id. `Tags.WildcardTagOvermatches` shows the filter is wider for other tags.
- Tokens.Verify: claims other than `exp` (`nbf`, `iat`) are never set by the program and are
  not checked.
- The two `time.Now()` calls in a login use the same instant in the model.
- Pages.VoteRoute, Pages.CreateTopicRoute, Pages.MessageRoute, Pages.VoteRouteNeedsToken: the
  gate and the handler check the token at the same instant. In the program each parses the
  token and reads the clock on its own, so a token that expires between the two checks passes
  the gate and gets the handler's 401 "Invalid token"; the model does not show that case.
- The Referer header is used as given, including an empty one.
- Invalid UTF-8 in form values is left out: strings are sequences of Unicode scalar values.
- The sort order of rows with equal keys is left open: any sorted permutation satisfies the
  contracts.
- Only the like and dislike routes, the topic-API route, the topic-creation route and the
  message route are written out as routes. `/index`, `/topic` and `/logout` sit behind the
  same `AuthMiddleware` and would be the same `Pages.Guard` over `Auth.Gate`.

## Findings

| source | as written | input that shows it | evidently intended | confidence | as-written member | corrected member |
|---|---|---|---|---|---|---|
| handlers/auth.go:177-178 | `tokenString.Value` is read before `tokenErr` is checked; with no `token_form` cookie `r.Cookie` returns a nil cookie, so the request panics and the connection is dropped | any request to a protected route without the cookie, e.g. GET /index from a fresh browser | redirect to /register, as for an empty or invalid token | high, not executed | Auth.Gate (Auth.GateMissingCookie) | Auth.GateIntended (Auth.GateAgreesWithIntended) |

The routes in `Pages` are wired as written, behind `Auth.Gate`, so a request without the cookie
ends in `Pages.ConnectionDropped`. `Pages.IntendedGateRedirectsMissingCookie` puts the corrected
gate in front of the vote route: its answer is unchanged for every request with a cookie, and a
request without one is redirected to /register.

=== FILE: auth.dfy ===
/**
  Registration, login, and the gate in front of protected pages. Password
  hashing and token signing are the primitives of Tokens.Crypto.
*/
module Auth {
  import opened Wrappers
  import opened Text
  import opened Http
  import opened Tokens
  import opened Store

  /** The password check compares Go's len, a byte count, against this bound. */
  const MinPasswordBytes: nat := 12

  /** Role every new account gets. */
  const DefaultRole: int := 1

  // ---------------------------------------------------------------------------
  // Registration
  // ---------------------------------------------------------------------------

  datatype RegisterForm = RegisterForm(
    verb: string, username: string, email: string, password: string, confirmPassword: string)

  datatype RegisterError = MissingField | PasswordMismatch | PasswordTooShort | AlreadyTaken | HashFailed

  /** A registration either re-renders the form with an error or redirects to it. */
  datatype RegisterReply = ErrorPage(error: RegisterError) | Registered(location: string)

  /** The text the re-rendered form shows for each error. */
  function ErrorText(e: RegisterError): string {
    match e
    case MissingField => "Tous les champs sont requis"
    case PasswordMismatch => "Les mots de passe ne correspondent pas"
    case PasswordTooShort => "Le mot de passe doit contenir au moins 12 caract\U{e8}res"
    case AlreadyTaken => "Ce nom d'utilisateur ou cet email est d\U{e9}j\U{e0} utilis\U{e9}"
    case HashFailed => "Erreur lors du hachage du mot de passe"
  }

  /** The re-rendered form tells every error apart: no two errors share a text. */
  lemma ErrorTextsDistinct(e1: RegisterError, e2: RegisterError)
    ensures ErrorText(e1) == ErrorText(e2) <==> e1 == e2
  {
  }

  predicate AllFilled(f: RegisterForm) {
    f.username != "" && f.email != "" && f.password != "" && f.confirmPassword != ""
  }

  /** Some account already holds the username or the mail address. */
  predicate Taken(users: seq<User>, username: string, email: string) {
    exists i :: 0 <= i < |users| && (users[i].username == username || users[i].mail == email)
  }

  /**
    The checks before hashing, in order; the first failing one is reported:
    a missing field, then a confirmation mismatch, then a password under
    12 bytes, then a username or mail already in use.
  */
  function FirstFailure(users: seq<User>, f: RegisterForm): (r: Option<RegisterError>)
    ensures r == Some(MissingField) <==> !AllFilled(f)
    ensures r == Some(PasswordMismatch) <==> AllFilled(f) && f.password != f.confirmPassword
    ensures r == Some(PasswordTooShort) <==>
              AllFilled(f) && f.password == f.confirmPassword && ByteLength(f.password) < MinPasswordBytes
    ensures r == Some(AlreadyTaken) <==>
              AllFilled(f) && f.password == f.confirmPassword && MinPasswordBytes <= ByteLength(f.password)
              && Taken(users, f.username, f.email)
    ensures r != Some(HashFailed)
  {
    if !AllFilled(f) then Some(MissingField)
    else if f.password != f.confirmPassword then Some(PasswordMismatch)
    else if ByteLength(f.password) < MinPasswordBytes then Some(PasswordTooShort)
    else if Taken(users, f.username, f.email) then Some(AlreadyTaken)
    else None
  }

  /** `RegisterHandler`: validate, hash, insert one user with the default role. */
  function Register(db: Db, f: RegisterForm, c: Crypto): (r: (Response<RegisterReply>, Db))
    ensures f.verb != MethodPost ==> r.0 == Fail(StatusMethodNotAllowed, "Method not allowed")
    ensures f.verb == MethodPost && FirstFailure(db.users, f).Some? ==>
              r.0 == Done(ErrorPage(FirstFailure(db.users, f).value))
    ensures f.verb == MethodPost && FirstFailure(db.users, f).None? && c.hash(f.password).None? ==>
              r.0 == Done(ErrorPage(HashFailed))
    ensures !(r.0.Done? && r.0.value.Registered?) ==> r.1 == db
    ensures r.0.Done? && r.0.value.Registered? <==>
              f.verb == MethodPost && FirstFailure(db.users, f).None? && c.hash(f.password).Some?
    ensures r.0.Done? && r.0.value.Registered? ==>
              && r.0.value.location == RegisterPath
              && r.1 == db.(users := db.users + [User(db.nextUserId, f.username, f.email, c.hash(f.password).value,
                                                      DefaultRole, 0, None)],
                            nextUserId := db.nextUserId + 1)
  {
    if f.verb != MethodPost then (Fail(StatusMethodNotAllowed, "Method not allowed"), db)
    else match FirstFailure(db.users, f)
      case Some(e) => (Done(ErrorPage(e)), db)
      case None =>
        match c.hash(f.password)
        case None => (Done(ErrorPage(HashFailed)), db)
        case Some(h) =>
          var u := User(db.nextUserId, f.username, f.email, h, DefaultRole, 0, None);
          (Done(Registered(RegisterPath)), db.(users := db.users + [u], nextUserId := db.nextUserId + 1))
  }

  /** Registration never lets two accounts share a username or a mail address. */
  lemma RegisterKeepsCredentialsUnique(db: Db, f: RegisterForm, c: Crypto)
    requires UniqueCredentials(db.users)
    ensures UniqueCredentials(Register(db, f, c).1.users)
  {
    var db' := Register(db, f, c).1;
    if db' != db {
      var n := |db.users|;
      forall i, j | 0 <= i < j < |db'.users|
        ensures db'.users[i].username != db'.users[j].username && db'.users[i].mail != db'.users[j].mail
      {
        if j == n {
          assert db'.users[i] == db.users[i];
          assert !Taken(db.users, f.username, f.email);
          assert !(db.users[i].username == f.username || db.users[i].mail == f.email);
        }
      }
    }
  }

  /** Submitting the same successful registration again is refused as a duplicate. */
  lemma SecondRegistrationRejected(db: Db, f: RegisterForm, c: Crypto)
    requires Register(db, f, c).0 == Done(Registered(RegisterPath))
    ensures Register(Register(db, f, c).1, f, c) == (Done(ErrorPage(AlreadyTaken)), Register(db, f, c).1)
  {
    var db' := Register(db, f, c).1;
    assert db'.users[|db.users|].username == f.username;
    assert Taken(db'.users, f.username, f.email);
  }

  /**
    The length bound counts bytes: eleven ASCII characters are refused even
    when confirmed, while six accented letters (two bytes each) pass it.
  */
  lemma PasswordBoundCountsBytes()
    ensures ByteLength("abcdefghijk") < MinPasswordBytes
    ensures ByteLength("\U{e9}\U{e9}\U{e9}\U{e9}\U{e9}\U{e9}") == MinPasswordBytes
    ensures |"\U{e9}\U{e9}\U{e9}\U{e9}\U{e9}\U{e9}"| == 6
  {
    var s := "\U{e9}\U{e9}\U{e9}\U{e9}\U{e9}\U{e9}";
    assert s[1..][1..][1..][1..][1..][1..] == "";
  }

  // ---------------------------------------------------------------------------
  // Login
  // ---------------------------------------------------------------------------

  datatype LoginForm = LoginForm(verb: string, username: string, password: string)

  /** A successful login sets the token cookie and redirects. */
  datatype LoginReply = LoggedIn(cookie: Cookie, location: string)

  /** The one message for an unknown user and for a wrong password alike. */
  const BadCredentials: string := "Nom d'utilisateur ou mot de passe incorrect"

  /** `LoginHandler`; a failed update of the last-connection time is swallowed and not modelled. */
  function Login(db: Db, f: LoginForm, c: Crypto, now: int): (r: (Response<LoginReply>, Db))
    ensures f.verb != MethodPost ==> r.0 == Fail(StatusMethodNotAllowed, "Method not allowed")
    ensures f.verb == MethodPost && (f.username == "" || f.password == "") ==>
              r.0 == Fail(StatusBadRequest, "Tous les champs sont requis")
    ensures f.verb == MethodPost && f.username != "" && f.password != "" && UserByName(db.users, f.username).Some?
            && c.matches(UserByName(db.users, f.username).value.passwordHash, f.password)
            && Generate(c, UserByName(db.users, f.username).value.id, f.username, now).None? ==>
              r.0 == Fail(StatusInternalServerError, "Erreur lors de la g\U{e9}n\U{e9}ration du token")
    ensures f.verb == MethodPost && f.username != "" && f.password != ""
            && (UserByName(db.users, f.username).None?
                || !c.matches(UserByName(db.users, f.username).value.passwordHash, f.password)) ==>
              r == (Fail(StatusUnauthorized, BadCredentials), db)
    ensures r.0.Fail? ==> r.1 == db
    ensures r.0.Done? <==>
              && f.verb == MethodPost && f.username != "" && f.password != ""
              && UserByName(db.users, f.username).Some?
              && c.matches(UserByName(db.users, f.username).value.passwordHash, f.password)
              && Generate(c, UserByName(db.users, f.username).value.id, f.username, now).Some?
    ensures r.0.Done? ==>
              var u := UserByName(db.users, f.username).value;
              && r.0.value.location == IndexPath
              && r.0.value.cookie == Cookie(CookieName, Generate(c, u.id, u.username, now).value, "/", now + Lifetime)
              && r.1 == db.(users := TouchLastConnection(db.users, u.id, now))
  {
    if f.verb != MethodPost then (Fail(StatusMethodNotAllowed, "Method not allowed"), db)
    else if f.username == "" || f.password == "" then (Fail(StatusBadRequest, "Tous les champs sont requis"), db)
    else match UserByName(db.users, f.username)
      case None => (Fail(StatusUnauthorized, BadCredentials), db)
      case Some(u) =>
        if !c.matches(u.passwordHash, f.password) then (Fail(StatusUnauthorized, BadCredentials), db)
        else match Generate(c, u.id, u.username, now)
          case None => (Fail(StatusInternalServerError, "Erreur lors de la g\U{e9}n\U{e9}ration du token"), db)
          case Some(token) =>
            (Done(LoggedIn(Cookie(CookieName, token, "/", now + Lifetime), IndexPath)),
             db.(users := TouchLastConnection(db.users, u.id, now)))
  }

  /** An unknown username and a wrong password give the same answer and change nothing. */
  lemma LoginFailureIsUniform(db: Db, unknown: LoginForm, wrong: LoginForm, c: Crypto, now: int)
    requires unknown.verb == MethodPost && unknown.username != "" && unknown.password != ""
    requires wrong.verb == MethodPost && wrong.username != "" && wrong.password != ""
    requires UserByName(db.users, unknown.username).None?
    requires UserByName(db.users, wrong.username).Some?
    requires !c.matches(UserByName(db.users, wrong.username).value.passwordHash, wrong.password)
    ensures Login(db, unknown, c, now) == Login(db, wrong, c, now)
    ensures Login(db, unknown, c, now) == (Fail(StatusUnauthorized, BadCredentials), db)
  {
  }

  /**
    The cookie of a successful login carries a token that verifies, for the
    next 24 hours, to the account's id and username.
  */
  lemma LoginTokenNamesTheUser(db: Db, f: LoginForm, c: Crypto, now: int, later: int)
    requires SignatureRoundTrip(c)
    requires Login(db, f, c, now).0.Done?
    requires now <= later <= now + Lifetime
    ensures var u := UserByName(db.users, f.username).value;
            Verify(c, Login(db, f, c, now).0.value.cookie.value, later)
            == Some(Claims(u.id, f.username, now + Lifetime))
  {
    var u := UserByName(db.users, f.username).value;
    IssuedTokenVerifies(c, u.id, u.username, now, later);
  }

  // ---------------------------------------------------------------------------
  // The gate in front of protected handlers
  // ---------------------------------------------------------------------------

  /**
    CallNext runs the wrapped handler; RedirectToRegister answers 303 to
    /register; Aborted is the request dying on a nil dereference, after
    which the server drops the connection without an answer.
  */
  datatype GateDecision = CallNext | RedirectToRegister | Aborted

  /** The token cookie is present, non-empty, and verifies at `now`. */
  predicate HoldsValidToken(cookie: Option<string>, c: Crypto, now: int) {
    cookie.Some? && cookie.value != "" && Verify(c, cookie.value, now).Some?
  }

  /**
    `AuthMiddleware` as written: it reads the cookie's value before looking at
    the lookup error, so a request without the cookie aborts.
  */
  function Gate(cookie: Option<string>, c: Crypto, now: int): (d: GateDecision)
    ensures d == CallNext <==> HoldsValidToken(cookie, c, now)
    ensures d == Aborted <==> cookie.None?
  {
    match cookie
    case None => Aborted
    case Some(value) =>
      if value == "" then RedirectToRegister
      else if Verify(c, value, now).None? then RedirectToRegister
      else CallNext
  }

  /** The gate as evidently intended: every request without a valid token is redirected. */
  function GateIntended(cookie: Option<string>, c: Crypto, now: int): (d: GateDecision)
    ensures d == CallNext <==> HoldsValidToken(cookie, c, now)
    ensures d == RedirectToRegister <==> !HoldsValidToken(cookie, c, now)
  {
    if cookie.None? || cookie.value == "" then RedirectToRegister
    else if Verify(c, cookie.value, now).None? then RedirectToRegister
    else CallNext
  }

  /** Without a cookie the written gate aborts where the intended one redirects. */
  lemma GateMissingCookie(c: Crypto, now: int)
    ensures Gate(None, c, now) == Aborted
    ensures GateIntended(None, c, now) == RedirectToRegister
  {
  }

  /** Whenever the cookie is present, the written and the intended gate agree. */
  lemma GateAgreesWithIntended(cookie: Option<string>, c: Crypto, now: int)
    requires cookie.Some?
    ensures Gate(cookie, c, now) == GateIntended(cookie, c, now)
  {
  }

  // ---------------------------------------------------------------------------
  // Logout
  // ---------------------------------------------------------------------------

  /** `logoutHandler`: clear the cookie on the client; the token itself stays valid. */
  function Logout(verb: string): (r: Response<(Cookie, string)>)
    ensures verb != MethodPost ==> r == Fail(StatusMethodNotAllowed, "Method not allowed")
    ensures r.Done? <==> verb == MethodPost
    ensures r.Done? ==> r.value.0.name == CookieName && r.value.0.value == "" && r.value.0.expires == 0
    ensures r.Done? ==> r.value.0.path == "/"
    ensures r.Done? ==> r.value.1 == RegisterPath
  {
    if verb != MethodPost then Fail(StatusMethodNotAllowed, "Method not allowed")
    else Done((Cookie(CookieName, "", "/", 0), RegisterPath))
  }
}

=== FILE: forum.dfy ===
/**
  The handlers of the forum package: topic fetch and listing, the JSON topic
  creation path, the like and dislike toggles, and the JSON message
  endpoints. Only GetTopicHandler and the two vote handlers are routed; the
  others are modelled as written and marked where they are unreachable.
*/
module Forum {
  import opened Wrappers
  import opened Text
  import opened Http
  import opened Tokens
  import opened Store
  import Votes
  import Sorting

  /** User id the JSON creation path substitutes when the body gives 0. */
  const SeedUserId: int := 1

  /**
    The cookie-and-token check the handlers repeat: a missing cookie is
    "Not authenticated", a token that does not verify is "Invalid token".
  */
  function Authenticate(cookie: Option<string>, c: Crypto, now: int): (r: Response<Claims>)
    ensures cookie.None? ==> r == Fail(StatusUnauthorized, "Not authenticated")
    ensures cookie.Some? && Verify(c, cookie.value, now).None? ==> r == Fail(StatusUnauthorized, "Invalid token")
    ensures r.Done? <==> cookie.Some? && Verify(c, cookie.value, now).Some?
    ensures r.Done? ==> r.value == c.parse(cookie.value).value
  {
    match cookie
    case None => Fail(StatusUnauthorized, "Not authenticated")
    case Some(v) =>
      match Verify(c, v, now)
      case None => Fail(StatusUnauthorized, "Invalid token")
      case Some(claims) => Done(claims)
  }

  // ---------------------------------------------------------------------------
  // Topics
  // ---------------------------------------------------------------------------

  /** The JSON shape of a topic; its `user_like` field is not modelled. */
  datatype TopicJson = TopicJson(
    id: int, title: string, description: string, tags: string, userId: int,
    username: string, stateId: int, likes: int, dislikes: int)

  function ToJson(v: TopicView): TopicJson {
    TopicJson(v.id, v.title, v.description, v.tags, v.userId, v.username, v.stateId, v.likes, v.dislikes)
  }

  /**
    `GetTopicHandler` (routed under GET /api/topic): a missing id and a
    non-integer id are 400, an unknown topic 404; a topic whose author row is
    gone passes the existence check but not the joined query, and is 500.
  */
  function GetTopic(db: Db, idText: string): (r: Response<TopicJson>)
    ensures idText == "" ==> r == Fail(StatusBadRequest, "Topic ID is required")
    ensures idText != "" && Atoi(idText).None? ==> r == Fail(StatusBadRequest, "Invalid topic ID")
    ensures Atoi(idText).Some? && TopicById(db.topics, Atoi(idText).value).None? ==>
              r == Fail(StatusNotFound, "Topic not found")
    ensures Atoi(idText).Some? && TopicById(db.topics, Atoi(idText).value).Some? ==>
              (r.Done? <==> ViewOf(db, TopicById(db.topics, Atoi(idText).value).value).Some?)
    ensures Atoi(idText).Some? && TopicById(db.topics, Atoi(idText).value).Some?
            && ViewOf(db, TopicById(db.topics, Atoi(idText).value).value).None? ==>
              r == Fail(StatusInternalServerError, "Error processing topic data")
    ensures r.Done? ==>
              exists t :: t in db.topics && t.id == Atoi(idText).value && ViewOf(db, t).Some?
                && r.value == ToJson(ViewOf(db, t).value)
    ensures r.Done? ==> r.value.likes == Votes.Tally(db.votes, r.value.id, true)
                        && r.value.dislikes == Votes.Tally(db.votes, r.value.id, false)
  {
    if idText == "" then Fail(StatusBadRequest, "Topic ID is required")
    else match Atoi(idText)
      case None => Fail(StatusBadRequest, "Invalid topic ID")
      case Some(id) =>
        match TopicById(db.topics, id)
        case None => Fail(StatusNotFound, "Topic not found")
        case Some(t) =>
          match ViewOf(db, t)
          case None => Fail(StatusInternalServerError, "Error processing topic data")
          case Some(v) => Done(ToJson(v))
  }

  function ByCreatedAt(v: TopicView): int {
    v.createdAt
  }

  /** `GetTopicsHandler` (not routed): every joined topic, newest first. */
  function GetTopics(db: Db): (r: seq<TopicView>)
    ensures multiset(r) == multiset(Views(db))
    ensures forall i, j :: 0 <= i < j < |r| ==> r[i].createdAt >= r[j].createdAt
  {
    var order := Sorting.InsertionSort(Views(db), ByCreatedAt);
    assert forall i, j :: 0 <= i < j < |order| ==> ByCreatedAt(order[i]) >= ByCreatedAt(order[j]);
    order
  }

  /**
    `CreateTopicHandler` (not routed): `body` is None when the request body
    is not valid JSON. A user id of 0 becomes the seed user; the author must
    exist. The answer echoes the decoded body with the new id and the
    author's name filled in.
  */
  function CreateTopicJson(db: Db, body: Option<TopicJson>, now: int): (r: (Response<TopicJson>, Db))
    ensures body.None? ==> r == (Fail(StatusBadRequest, "Invalid request body"), db)
    ensures r.0.Fail? ==> r.1 == db
    ensures body.Some? ==>
              var uid := if body.value.userId == 0 then SeedUserId else body.value.userId;
              && (UserById(db.users, uid).None? ==> r.0 == Fail(StatusBadRequest, "User does not exist"))
              && (UserById(db.users, uid).Some? ==>
                    var b := body.value;
                    && r.0 == Done(b.(id := db.nextTopicId, userId := uid, username := UserById(db.users, uid).value.username))
                    && r.1.topics == db.topics + [Topic(db.nextTopicId, b.title, b.description, b.tags, uid, b.stateId, now)]
                    && r.1.users == BumpTopicCount(db.users, uid)
                    && r.1.votes == db.votes && r.1.messages == db.messages
                    && r.1.nextTopicId == db.nextTopicId + 1
                    && r.1.nextUserId == db.nextUserId && r.1.nextMessageId == db.nextMessageId)
  {
    match body
    case None => (Fail(StatusBadRequest, "Invalid request body"), db)
    case Some(b) =>
      var uid := if b.userId == 0 then SeedUserId else b.userId;
      match UserById(db.users, uid)
      case None => (Fail(StatusBadRequest, "User does not exist"), db)
      case Some(u) =>
        var t := Topic(db.nextTopicId, b.title, b.description, b.tags, uid, b.stateId, now);
        var db' := db.(topics := db.topics + [t], nextTopicId := db.nextTopicId + 1,
                       users := BumpTopicCount(db.users, uid));
        (Done(b.(id := t.id, userId := uid, username := u.username)), db')
  }

  // ---------------------------------------------------------------------------
  // Likes and dislikes
  // ---------------------------------------------------------------------------

  /** A like or dislike request: method, the `id` form value, the token cookie, the Referer. */
  datatype VoteRequest = VoteRequest(verb: string, idText: string, cookie: Option<string>, referer: string)

  /** The checks before any table access pass: POST, an integer id, a verifying token. */
  predicate Admissible(req: VoteRequest, c: Crypto, now: int) {
    req.verb == MethodPost && Atoi(req.idText).Some? && Authenticate(req.cookie, c, now).Done?
  }

  /**
    `LikeTopicHandler` (action Like) and `DislikeTopicHandler` (action Dislike).
    Validation runs in order (405, 400, 400, 401, 401); a rejected request
    leaves every table alone; an admitted one runs the toggle statement for
    the token's user and the topic, then redirects back to the Referer.
  */
  function VoteTopic(db: Db, req: VoteRequest, a: Votes.Action, c: Crypto, now: int): (r: (Response<string>, Db))
    ensures req.verb != MethodPost ==> r.0 == Fail(StatusMethodNotAllowed, "Method not allowed")
    ensures req.verb == MethodPost && req.idText == "" ==> r.0 == Fail(StatusBadRequest, "Topic ID is required")
    ensures req.verb == MethodPost && req.idText != "" && Atoi(req.idText).None? ==>
              r.0 == Fail(StatusBadRequest, "Invalid topic ID")
    ensures req.verb == MethodPost && Atoi(req.idText).Some? ==>
              (req.cookie.None? ==> r.0 == Fail(StatusUnauthorized, "Not authenticated"))
              && (req.cookie.Some? && Verify(c, req.cookie.value, now).None? ==> r.0 == Fail(StatusUnauthorized, "Invalid token"))
    ensures r.0.Fail? <==> !Admissible(req, c, now)
    ensures r.0.Fail? ==> r.1 == db
    ensures r.0.Done? ==>
              && r.0.value == req.referer
              && r.1 == db.(votes := Votes.Apply(db.votes, a, Authenticate(req.cookie, c, now).value.userId, Atoi(req.idText).value))
  {
    if req.verb != MethodPost then (Fail(StatusMethodNotAllowed, "Method not allowed"), db)
    else if req.idText == "" then (Fail(StatusBadRequest, "Topic ID is required"), db)
    else match Atoi(req.idText)
      case None => (Fail(StatusBadRequest, "Invalid topic ID"), db)
      case Some(id) =>
        match Authenticate(req.cookie, c, now)
        case Fail(status, message) => (Fail(status, message), db)
        case Done(claims) =>
          (Done(req.referer), db.(votes := Votes.Apply(db.votes, a, claims.userId, id)))
  }

  /**
    Seen from the requesting user: an admitted like or dislike moves their
    vote on the topic by the toggle, keeps one row at most per pair, and
    changes no other pair's vote.
  */
  lemma VoteTopicToggles(db: Db, req: VoteRequest, a: Votes.Action, c: Crypto, now: int, u': int, t': int)
    requires Votes.AtMostOnePerPair(db.votes)
    requires Admissible(req, c, now)
    ensures var u := Authenticate(req.cookie, c, now).value.userId;
            var t := Atoi(req.idText).value;
            var votes' := VoteTopic(db, req, a, c, now).1.votes;
            && Votes.Current(votes', u, t) == Votes.Toggle(a, Votes.Current(db.votes, u, t))
            && Votes.AtMostOnePerPair(votes')
            && ((u', t') != (u, t) ==> Votes.Current(votes', u', t') == Votes.Current(db.votes, u', t'))
  {
    var u := Authenticate(req.cookie, c, now).value.userId;
    var t := Atoi(req.idText).value;
    Votes.ApplyFollowsToggle(db.votes, a, u, t);
    Votes.ApplyPreservesAtMostOne(db.votes, a, u, t);
    if (u', t') != (u, t) {
      Votes.ApplyKeepsOtherPairs(db.votes, a, u, t, u', t');
    }
  }

  // ---------------------------------------------------------------------------
  // Messages (the JSON versions; neither is routed)
  // ---------------------------------------------------------------------------

  function ByPostedAt(m: MessageView): int {
    -m.createdAt
  }

  /** `GetMessagesHandler` (not routed): a topic's messages, oldest first. */
  function GetMessages(db: Db, verb: string, topicText: string): (r: Response<seq<MessageView>>)
    ensures verb != MethodGet ==> r == Fail(StatusMethodNotAllowed, "Method not allowed")
    ensures verb == MethodGet && topicText == "" ==> r == Fail(StatusBadRequest, "Topic ID is required")
    ensures verb == MethodGet && topicText != "" && Atoi(topicText).None? ==> r == Fail(StatusBadRequest, "Invalid topic ID")
    ensures r.Done? <==> verb == MethodGet && Atoi(topicText).Some?
    ensures r.Done? ==>
              && multiset(r.value) == multiset(MessagesOf(db, db.messages, Atoi(topicText).value))
              && forall i, j :: 0 <= i < j < |r.value| ==> r.value[i].createdAt <= r.value[j].createdAt
  {
    if verb != MethodGet then Fail(StatusMethodNotAllowed, "Method not allowed")
    else if topicText == "" then Fail(StatusBadRequest, "Topic ID is required")
    else match Atoi(topicText)
      case None => Fail(StatusBadRequest, "Invalid topic ID")
      case Some(id) =>
        var ms := Sorting.InsertionSort(MessagesOf(db, db.messages, id), ByPostedAt);
        assert forall i, j :: 0 <= i < j < |ms| ==> ByPostedAt(ms[i]) >= ByPostedAt(ms[j]);
        Done(ms)
  }

  datatype MessageRequest = MessageRequest(verb: string, cookie: Option<string>, content: string, topicText: string)

  /** The redirect after posting: back to the topic page, with the id as sent. */
  function TopicPage(topicText: string): string {
    "/topic?id=" + topicText
  }

  /**
    `CreateMessageHandler` of the forum package (not routed): after method and
    token checks it refuses an empty content or topic id with 400.
  */
  function CreateMessageChecked(db: Db, req: MessageRequest, c: Crypto, now: int): (r: (Response<string>, Db))
    ensures req.verb != MethodPost ==> r.0 == Fail(StatusMethodNotAllowed, "Method not allowed")
    ensures req.verb == MethodPost && req.cookie.None? ==> r.0 == Fail(StatusUnauthorized, "Not authenticated")
    ensures req.verb == MethodPost && req.cookie.Some? && Verify(c, req.cookie.value, now).None? ==>
              r.0 == Fail(StatusUnauthorized, "Invalid token")
    ensures req.verb == MethodPost && Authenticate(req.cookie, c, now).Done? && (req.content == "" || req.topicText == "") ==>
              r.0 == Fail(StatusBadRequest, "Content and topic ID are required")
    ensures req.verb == MethodPost && Authenticate(req.cookie, c, now).Done? && req.content != ""
            && req.topicText != "" && Atoi(req.topicText).None? ==>
              r.0 == Fail(StatusInternalServerError, "Error creating message")
    ensures r.0.Done? <==>
              && req.verb == MethodPost && Authenticate(req.cookie, c, now).Done?
              && req.content != "" && req.topicText != "" && Atoi(req.topicText).Some?
    ensures r.0.Fail? ==> r.1 == db
    ensures r.0.Done? ==>
              && req.content != ""
              && r.0.value == TopicPage(req.topicText)
              && Some(r.1) == InsertMessage(db, req.content, req.topicText, Authenticate(req.cookie, c, now).value.userId, now)
  {
    if req.verb != MethodPost then (Fail(StatusMethodNotAllowed, "Method not allowed"), db)
    else match Authenticate(req.cookie, c, now)
      case Fail(status, message) => (Fail(status, message), db)
      case Done(claims) =>
        if req.content == "" || req.topicText == "" then (Fail(StatusBadRequest, "Content and topic ID are required"), db)
        else match InsertMessage(db, req.content, req.topicText, claims.userId, now)
          case None => (Fail(StatusInternalServerError, "Error creating message"), db)
          case Some(db') => (Done(TopicPage(req.topicText)), db')
  }
}

=== FILE: http.dfy ===
/** The shapes of the HTTP answers the handlers give, without the transport. */
module Http {

  const StatusBadRequest: int := 400
  const StatusUnauthorized: int := 401
  const StatusNotFound: int := 404
  const StatusMethodNotAllowed: int := 405
  const StatusInternalServerError: int := 500

  const MethodGet: string := "GET"
  const MethodPost: string := "POST"

  /** The pages the handlers redirect to. */
  const IndexPath: string := "/index"
  const RegisterPath: string := "/register"

  /** An error status with its message, or a handler's successful answer. */
  datatype Response<+T> = Fail(status: int, message: string) | Done(value: T)

  /** A cookie as set by the server; `expires` is in Unix seconds. */
  datatype Cookie = Cookie(name: string, value: string, path: string, expires: int)
}

=== FILE: pages.dfy ===
/**
  The handlers of the main package: the topic listing with its tag filter,
  sort choice and theme selector, the form path for topic creation, the live
  message handler, the root route, and the wiring of protected routes behind
  the authentication gate.
*/
module Pages {
  import opened Wrappers
  import opened Text
  import opened Http
  import opened Tokens
  import opened Store
  import Tags
  import Themes
  import Sorting
  import Votes
  import Auth
  import Forum

  /** State id of every topic created through the form. */
  const OpenState: int := 1

  /** Stands for the store's error text, which the live handlers pass to the client. */
  const DriverError: string := "driver error"

  // ---------------------------------------------------------------------------
  // Theme selector
  // ---------------------------------------------------------------------------

  datatype ThemeView = ThemeView(id: string, caption: string, selected: bool)

  /** The theme table, in order, with the selected tag flagged. */
  function ThemeViews(selected: string): (r: seq<ThemeView>)
    ensures |r| == |Themes.Table|
    ensures forall i :: 0 <= i < |r| ==>
              r[i].id == Themes.Table[i].id && r[i].caption == Themes.Table[i].caption
              && (r[i].selected <==> Themes.Table[i].id == selected)
  {
    seq(|Themes.Table|, i requires 0 <= i < |Themes.Table| =>
      ThemeView(Themes.Table[i].id, Themes.Table[i].caption, Themes.Table[i].id == selected))
  }

  /** At most one theme is flagged, and exactly one when the tag is a theme id. */
  lemma OneThemeSelected(selected: string)
    ensures forall i, j :: 0 <= i < j < |ThemeViews(selected)| ==>
              !(ThemeViews(selected)[i].selected && ThemeViews(selected)[j].selected)
    ensures Themes.IsThemeId(selected) <==> exists i :: 0 <= i < |ThemeViews(selected)| && ThemeViews(selected)[i].selected
  {
    Themes.IdsDistinct();
    var r := ThemeViews(selected);
    if Themes.IsThemeId(selected) {
      var i :| 0 <= i < |Themes.Table| && Themes.Table[i].id == selected;
      assert r[i].selected;
    }
  }

  // ---------------------------------------------------------------------------
  // Topic listing
  // ---------------------------------------------------------------------------

  /** The rows the WHERE clause keeps: all of them when no tag is selected. */
  function Matching(views: seq<TopicView>, tag: string): (r: seq<TopicView>)
    ensures forall v :: v in r <==> v in views && (tag == "" || Tags.TagFilter(tag, v.tags))
    ensures forall v :: multiset(r)[v] == if tag == "" || Tags.TagFilter(tag, v.tags) then multiset(views)[v] else 0
    ensures tag == "" ==> r == views
  {
    if tag == "" then views
    else if |views| == 0 then []
    else
      var rest := Matching(views[1..], tag);
      assert forall v :: v in views <==> v == views[0] || v in views[1..];
      assert views == [views[0]] + views[1..];
      if Tags.TagFilter(tag, views[0].tags) then [views[0]] + rest else rest
  }

  /** The ORDER BY the `sort` query value selects: likes, dislikes, or creation time. */
  function SortKey(sortBy: string): TopicView -> int {
    if sortBy == "likes" then (v: TopicView) => v.likes
    else if sortBy == "dislikes" then (v: TopicView) => v.dislikes
    else (v: TopicView) => v.createdAt
  }

  datatype IndexPage = IndexPage(
    topics: seq<TopicView>, username: string, themes: seq<ThemeView>, sortBy: string, selectedTag: string)

  /**
    `indexHandler`: the joined topics the tag filter keeps, ordered by the
    chosen key, largest first; the viewer's name when the cookie carries a
    valid token (a missing cookie is handled here); the theme selector.
  */
  function Index(db: Db, sortBy: string, tag: string, cookie: Option<string>, c: Crypto, now: int): (p: IndexPage)
    ensures multiset(p.topics) == multiset(Matching(Views(db), tag))
    ensures sortBy == "likes" ==>
              forall i, j :: 0 <= i < j < |p.topics| ==> p.topics[i].likes >= p.topics[j].likes
    ensures sortBy == "dislikes" ==>
              forall i, j :: 0 <= i < j < |p.topics| ==> p.topics[i].dislikes >= p.topics[j].dislikes
    ensures sortBy != "likes" && sortBy != "dislikes" ==>
              forall i, j :: 0 <= i < j < |p.topics| ==> p.topics[i].createdAt >= p.topics[j].createdAt
    ensures p.themes == ThemeViews(tag) && p.sortBy == sortBy && p.selectedTag == tag
    ensures p.username == if cookie.Some? && Verify(c, cookie.value, now).Some?
                          then Verify(c, cookie.value, now).value.username else ""
  {
    var key := SortKey(sortBy);
    var rows := Sorting.InsertionSort(Matching(Views(db), tag), key);
    assert forall i, j :: 0 <= i < j < |rows| ==> key(rows[i]) >= key(rows[j]);
    var username :=
      match cookie
      case None => ""
      case Some(v) => match Verify(c, v, now) case None => "" case Some(claims) => claims.username;
    IndexPage(rows, username, ThemeViews(tag), sortBy, tag)
  }

  /** The WHERE clause keeps a row whose tags were joined from comma-free tags exactly when the tag is one of them. */
  lemma MatchingIsMembership(views: seq<TopicView>, tag: string, v: TopicView, xs: seq<string>)
    requires tag != "" && NoComma(tag) && Tags.NoWildcards(tag) && Tags.AllNoComma(xs)
    requires v in views && v.tags == Tags.Join(xs)
    ensures v in Matching(views, tag) <==> tag in xs
  {
    Tags.TagFilterIsMembership(xs, tag);
  }

  /**
    For a theme-like tag, a topic whose tags were stored as a join of
    comma-free tags is listed exactly when the tag is one of them.
  */
  lemma IndexListsExactlyTagged(
    db: Db, sortBy: string, tag: string, cookie: Option<string>, c: Crypto, now: int,
    v: TopicView, xs: seq<string>)
    requires tag != "" && NoComma(tag) && Tags.NoWildcards(tag) && Tags.AllNoComma(xs)
    requires v in Views(db) && v.tags == Tags.Join(xs)
    ensures v in Index(db, sortBy, tag, cookie, c, now).topics <==> tag in xs
  {
    var p := Index(db, sortBy, tag, cookie, c, now);
    assert v in p.topics <==> v in multiset(p.topics);
    MatchingIsMembership(Views(db), tag, v, xs);
  }

  /** With no tag selected every joined topic is listed. */
  lemma EmptyTagListsAll(db: Db, sortBy: string, cookie: Option<string>, c: Crypto, now: int)
    ensures multiset(Index(db, sortBy, "", cookie, c, now).topics) == multiset(Views(db))
  {
  }

  // ---------------------------------------------------------------------------
  // Topic creation through the form (the routed path)
  // ---------------------------------------------------------------------------

  datatype TopicForm = TopicForm(
    verb: string, cookie: Option<string>, title: string, description: string, tags: seq<string>)

  /**
    `createTopicHandler`: after the method and token checks it stores the
    selected tags joined by ", ", the token's user as author, state 1, and
    adds one to that user's topic counter; then it redirects to the listing.
  */
  function CreateTopicForm(db: Db, f: TopicForm, c: Crypto, now: int): (r: (Response<string>, Db))
    ensures f.verb != MethodPost ==> r.0 == Fail(StatusMethodNotAllowed, "Method not allowed")
    ensures f.verb == MethodPost && f.cookie.None? ==> r.0 == Fail(StatusUnauthorized, "Not authenticated")
    ensures f.verb == MethodPost && f.cookie.Some? && Verify(c, f.cookie.value, now).None? ==>
              r.0 == Fail(StatusUnauthorized, "Invalid token")
    ensures r.0.Fail? ==> r.1 == db
    ensures r.0.Done? <==> f.verb == MethodPost && Forum.Authenticate(f.cookie, c, now).Done?
    ensures r.0.Done? ==>
              var uid := Forum.Authenticate(f.cookie, c, now).value.userId;
              && r.0.value == IndexPath
              && r.1.topics == db.topics + [Topic(db.nextTopicId, f.title, f.description, Tags.Join(f.tags), uid, OpenState, now)]
              && r.1.users == BumpTopicCount(db.users, uid)
              && r.1.votes == db.votes && r.1.messages == db.messages
              && r.1.nextTopicId == db.nextTopicId + 1
              && r.1.nextUserId == db.nextUserId && r.1.nextMessageId == db.nextMessageId
  {
    if f.verb != MethodPost then (Fail(StatusMethodNotAllowed, "Method not allowed"), db)
    else match Forum.Authenticate(f.cookie, c, now)
      case Fail(status, message) => (Fail(status, message), db)
      case Done(claims) =>
        var t := Topic(db.nextTopicId, f.title, f.description, Tags.Join(f.tags), claims.userId, OpenState, now);
        (Done(IndexPath), db.(topics := db.topics + [t], nextTopicId := db.nextTopicId + 1,
                              users := BumpTopicCount(db.users, claims.userId)))
  }

  /**
    End to end: a topic created through the form with comma-free tags, by an
    existing user, is listed under a theme-like tag exactly when that tag was
    among the ones selected.
  */
  lemma CreatedTopicListedUnderItsTags(
    db: Db, f: TopicForm, c: Crypto, now: int, sortBy: string, tag: string, later: int)
    requires CreateTopicForm(db, f, c, now).0.Done?
    requires UserById(db.users, Forum.Authenticate(f.cookie, c, now).value.userId).Some?
    requires tag != "" && NoComma(tag) && Tags.NoWildcards(tag) && Tags.AllNoComma(f.tags)
    ensures var db' := CreateTopicForm(db, f, c, now).1;
            var t := db'.topics[|db'.topics| - 1];
            && ViewOf(db', t).Some?
            && (ViewOf(db', t).value in Index(db', sortBy, tag, f.cookie, c, later).topics <==> tag in f.tags)
  {
    var db' := CreateTopicForm(db, f, c, now).1;
    var uid := Forum.Authenticate(f.cookie, c, now).value.userId;
    var i :| 0 <= i < |db.users| && db.users[i].id == uid;
    assert db'.users[i].id == uid;
    var t := db'.topics[|db'.topics| - 1];
    assert t.userId == uid && t.tags == Tags.Join(f.tags);
    var v := ViewOf(db', t).value;
    assert v in Views(db');
    IndexListsExactlyTagged(db', sortBy, tag, f.cookie, c, later, v, f.tags);
  }

  /**
    With user ids unique, a created topic adds exactly one to the sum of
    the topic counters when its author exists, and nothing otherwise; a
    refused form changes no counter.
  */
  lemma CreateTopicCountsOnce(db: Db, f: TopicForm, c: Crypto, now: int)
    requires UniqueIds(db.users)
    ensures var r := CreateTopicForm(db, f, c, now);
            TopicTotal(r.1.users) == TopicTotal(db.users)
              + if r.0.Done? && UserById(db.users, Forum.Authenticate(f.cookie, c, now).value.userId).Some? then 1 else 0
  {
    var r := CreateTopicForm(db, f, c, now);
    if r.0.Done? {
      var uid := Forum.Authenticate(f.cookie, c, now).value.userId;
      BumpAddsIdCount(db.users, uid);
      UniqueIdCount(db.users, uid);
    }
  }

  /**
    The counter keeps topic ids fresh: a created topic's id differs from every
    earlier topic's, so two successive creations never share an id.
  */
  lemma CreateTopicKeepsIdsFresh(db: Db, f: TopicForm, c: Crypto, now: int)
    requires TopicIdsBelowCounter(db)
    ensures TopicIdsBelowCounter(CreateTopicForm(db, f, c, now).1)
    ensures var r := CreateTopicForm(db, f, c, now);
            r.0.Done? ==> forall i :: 0 <= i < |db.topics| ==> db.topics[i].id != r.1.topics[|db.topics|].id
  {
  }

  // ---------------------------------------------------------------------------
  // Messages (the routed path)
  // ---------------------------------------------------------------------------

  /**
    `createMessageHandler` (routed at /api/messages): unlike the forum
    package's version it has no check for an empty content or topic id.
  */
  function CreateMessage(db: Db, req: Forum.MessageRequest, c: Crypto, now: int): (r: (Response<string>, Db))
    ensures req.verb != MethodPost ==> r.0 == Fail(StatusMethodNotAllowed, "Method not allowed")
    ensures req.verb == MethodPost && req.cookie.None? ==> r.0 == Fail(StatusUnauthorized, "Not authenticated")
    ensures req.verb == MethodPost && req.cookie.Some? && Verify(c, req.cookie.value, now).None? ==>
              r.0 == Fail(StatusUnauthorized, "Invalid token")
    ensures req.verb == MethodPost && Forum.Authenticate(req.cookie, c, now).Done? && Atoi(req.topicText).None? ==>
              r.0 == Fail(StatusInternalServerError, DriverError)
    ensures r.0.Fail? ==> r.1 == db
    ensures r.0.Done? <==>
              req.verb == MethodPost && Forum.Authenticate(req.cookie, c, now).Done? && Atoi(req.topicText).Some?
    ensures r.0.Done? ==>
              && r.0.value == Forum.TopicPage(req.topicText)
              && Some(r.1) == InsertMessage(db, req.content, req.topicText, Forum.Authenticate(req.cookie, c, now).value.userId, now)
  {
    if req.verb != MethodPost then (Fail(StatusMethodNotAllowed, "Method not allowed"), db)
    else match Forum.Authenticate(req.cookie, c, now)
      case Fail(status, message) => (Fail(status, message), db)
      case Done(claims) =>
        match InsertMessage(db, req.content, req.topicText, claims.userId, now)
        case None => (Fail(StatusInternalServerError, DriverError), db)
        case Some(db') => (Done(Forum.TopicPage(req.topicText)), db')
  }

  /** The routed handler stores an empty message that the unrouted one refuses. */
  lemma LiveHandlerStoresEmptyMessage(db: Db, cookie: Option<string>, c: Crypto, now: int)
    requires Forum.Authenticate(cookie, c, now).Done?
    ensures var req := Forum.MessageRequest(MethodPost, cookie, "", "7");
            && CreateMessage(db, req, c, now).0 == Done("/topic?id=7")
            && CreateMessage(db, req, c, now).1.messages[|db.messages|].content == ""
            && Forum.CreateMessageChecked(db, req, c, now).0 == Fail(StatusBadRequest, "Content and topic ID are required")
  {
    assert Atoi("7") == Some(7) by {
      assert AllDigits("7");
      assert "7"[..0] == "";
      assert DigitsValue("7") == 7;
    }
    assert Forum.TopicPage("7") == "/topic?id=7";
  }

  // ---------------------------------------------------------------------------
  // contains
  // ---------------------------------------------------------------------------

  /** `contains`: a linear scan for `str` (the helper is not called by any handler). */
  method ContainsString(slice: seq<string>, str: string) returns (found: bool)
    ensures found <==> str in slice
  {
    var i := 0;
    while i < |slice|
      invariant 0 <= i <= |slice|
      invariant forall k :: 0 <= k < i ==> slice[k] != str
    {
      if slice[i] == str {
        return true;
      }
      i := i + 1;
    }
    return false;
  }

  // ---------------------------------------------------------------------------
  // Routing
  // ---------------------------------------------------------------------------

  datatype RootReply = RootRedirect(location: string) | RootNotFound

  /**
    The catch-all "/" route, reached by every path without its own handler:
    no cookie sends the client to /register (whatever the path); with a
    cookie, whatever its value, "/" goes to /index and every other path is 404.
  */
  function RootRoute(cookie: Option<string>, path: string): (r: RootReply)
    ensures r == RootRedirect(IndexPath) <==> cookie.Some? && path == "/"
    ensures r == RootRedirect(RegisterPath) <==> cookie.None?
    ensures r == RootNotFound <==> cookie.Some? && path != "/"
  {
    if cookie.None? then RootRedirect(RegisterPath)
    else if path == "/" then RootRedirect(IndexPath)
    else RootNotFound
  }

  /** What a protected route gives: the handler's answer, a redirect, or a dropped connection. */
  datatype Served<+R> = Served(reply: R) | RedirectedToRegister | ConnectionDropped

  /**
    A handler behind `AuthMiddleware`: it runs only on CallNext, otherwise
    nothing changes. The routes below are wired as written, through
    `Auth.Gate`, so a request without the cookie ends in the dropped
    connection of its nil dereference.
  */
  function Guard<R>(d: Auth.GateDecision, db: Db, handler: Db -> (R, Db)): (r: (Served<R>, Db))
    ensures d == Auth.CallNext ==> r == (Served(handler(db).0), handler(db).1)
    ensures d != Auth.CallNext ==> r.1 == db
    ensures d == Auth.RedirectToRegister <==> r.0 == RedirectedToRegister
    ensures d == Auth.Aborted <==> r.0 == ConnectionDropped
  {
    match d
    case CallNext => var out := handler(db); (Served(out.0), out.1)
    case RedirectToRegister => (RedirectedToRegister, db)
    case Aborted => (ConnectionDropped, db)
  }

  /**
    POST /api/topic/like and /api/topic/dislike: the vote handler runs exactly
    when the cookie holds a valid token; a missing cookie drops the
    connection and any other cookie is sent to /register, the store unchanged.
  */
  function VoteRoute(db: Db, req: Forum.VoteRequest, a: Votes.Action, c: Crypto, now: int): (r: (Served<Response<string>>, Db))
    ensures Auth.HoldsValidToken(req.cookie, c, now) ==>
              r == (Served(Forum.VoteTopic(db, req, a, c, now).0), Forum.VoteTopic(db, req, a, c, now).1)
    ensures req.cookie.None? ==> r == (ConnectionDropped, db)
    ensures req.cookie.Some? && !Auth.HoldsValidToken(req.cookie, c, now) ==> r == (RedirectedToRegister, db)
  {
    Guard(Auth.Gate(req.cookie, c, now), db, (d: Db) => Forum.VoteTopic(d, req, a, c, now))
  }

  /**
    Through the route, votes change only for a request holding a valid token,
    the handler's own 401 answers can no longer occur, and a request without
    the cookie drops the connection.
  */
  lemma VoteRouteNeedsToken(db: Db, req: Forum.VoteRequest, a: Votes.Action, c: Crypto, now: int)
    ensures VoteRoute(db, req, a, c, now).1 != db ==> Auth.HoldsValidToken(req.cookie, c, now)
    ensures VoteRoute(db, req, a, c, now).0.Served? ==>
              VoteRoute(db, req, a, c, now).0.reply.Done?
              || VoteRoute(db, req, a, c, now).0.reply.status != StatusUnauthorized
    ensures req.cookie.None? ==> VoteRoute(db, req, a, c, now) == (ConnectionDropped, db)
  {
  }

  /**
    GET /api/topic: every method passes the gate, and only GET reaches
    GetTopicHandler; the others are 405.
  */
  function TopicApiRoute(db: Db, verb: string, idText: string, cookie: Option<string>, c: Crypto, now: int): (r: Served<Response<Forum.TopicJson>>)
    ensures Auth.HoldsValidToken(cookie, c, now) ==>
              r == Served(if verb == MethodGet then Forum.GetTopic(db, idText) else Fail(StatusMethodNotAllowed, "Method not allowed"))
    ensures cookie.None? ==> r == ConnectionDropped
    ensures cookie.Some? && !Auth.HoldsValidToken(cookie, c, now) ==> r == RedirectedToRegister
  {
    Guard(Auth.Gate(cookie, c, now), db,
          (d: Db) => (if verb == MethodGet then Forum.GetTopic(d, idText) else Fail(StatusMethodNotAllowed, "Method not allowed"), d)).0
  }

  /** POST /topics: the form handler runs exactly when the cookie holds a valid token. */
  function CreateTopicRoute(db: Db, f: TopicForm, c: Crypto, now: int): (r: (Served<Response<string>>, Db))
    ensures Auth.HoldsValidToken(f.cookie, c, now) ==>
              r == (Served(CreateTopicForm(db, f, c, now).0), CreateTopicForm(db, f, c, now).1)
    ensures f.cookie.None? ==> r == (ConnectionDropped, db)
    ensures f.cookie.Some? && !Auth.HoldsValidToken(f.cookie, c, now) ==> r == (RedirectedToRegister, db)
  {
    Guard(Auth.Gate(f.cookie, c, now), db, (d: Db) => CreateTopicForm(d, f, c, now))
  }

  /** POST /api/messages: the live message handler runs exactly when the cookie holds a valid token. */
  function MessageRoute(db: Db, req: Forum.MessageRequest, c: Crypto, now: int): (r: (Served<Response<string>>, Db))
    ensures Auth.HoldsValidToken(req.cookie, c, now) ==>
              r == (Served(CreateMessage(db, req, c, now).0), CreateMessage(db, req, c, now).1)
    ensures req.cookie.None? ==> r == (ConnectionDropped, db)
    ensures req.cookie.Some? && !Auth.HoldsValidToken(req.cookie, c, now) ==> r == (RedirectedToRegister, db)
  {
    Guard(Auth.Gate(req.cookie, c, now), db, (d: Db) => CreateMessage(d, req, c, now))
  }

  /** Topics and messages are only ever added by requests holding a valid token. */
  lemma WritesNeedToken(db: Db, f: TopicForm, req: Forum.MessageRequest, c: Crypto, now: int)
    ensures CreateTopicRoute(db, f, c, now).1 != db ==> Auth.HoldsValidToken(f.cookie, c, now)
    ensures MessageRoute(db, req, c, now).1 != db ==> Auth.HoldsValidToken(req.cookie, c, now)
  {
  }

  /**
    With the gate as intended, a route's answer differs from the written one
    only for a request without the cookie, which is redirected instead of
    dropped.
  */
  lemma IntendedGateRedirectsMissingCookie(db: Db, req: Forum.VoteRequest, a: Votes.Action, c: Crypto, now: int)
    ensures req.cookie.Some? ==>
              Guard(Auth.GateIntended(req.cookie, c, now), db, (d: Db) => Forum.VoteTopic(d, req, a, c, now))
              == VoteRoute(db, req, a, c, now)
    ensures req.cookie.None? ==>
              Guard(Auth.GateIntended(req.cookie, c, now), db, (d: Db) => Forum.VoteTopic(d, req, a, c, now))
              == (RedirectedToRegister, db)
  {
    if req.cookie.Some? {
      Auth.GateAgreesWithIntended(req.cookie, c, now);
    }
  }
}

=== FILE: sorting.dfy ===
/**
  ORDER BY <key> DESC. SQL leaves the order of equal keys open, so the
  listing is specified as any permutation sorted by the key; InsertionSort is
  one such order (it keeps equal keys in table order).
*/
module Sorting {

  ghost predicate SortedDesc<T>(xs: seq<T>, key: T -> int) {
    forall i, j :: 0 <= i < j < |xs| ==> key(xs[i]) >= key(xs[j])
  }

  /** Inserts `x` before the first element whose key is at most x's, so earlier rows stay ahead of equal later ones. */
  function Insert<T>(x: T, xs: seq<T>, key: T -> int): (r: seq<T>)
    requires SortedDesc(xs, key)
    ensures SortedDesc(r, key)
    ensures multiset(r) == multiset(xs) + multiset{x}
    ensures |r| == |xs| + 1
  {
    if |xs| == 0 then [x]
    else if key(x) >= key(xs[0]) then [x] + xs
    else
      var rest := Insert(x, xs[1..], key);
      assert xs == [xs[0]] + xs[1..];
      HeadBoundsRest(xs[0], xs[1..], x, rest, key);
      ConsSorted(xs[0], rest, key);
      [xs[0]] + rest
  }

  /** Every element of the tail with `x` added has a key at most the head's. */
  lemma HeadBoundsRest<T>(h: T, tail: seq<T>, x: T, rest: seq<T>, key: T -> int)
    requires SortedDesc([h] + tail, key) && key(x) < key(h)
    requires multiset(rest) == multiset(tail) + multiset{x}
    ensures forall i :: 0 <= i < |rest| ==> key(h) >= key(rest[i])
  {
    forall i | 0 <= i < |rest|
      ensures key(h) >= key(rest[i])
    {
      assert rest[i] in multiset(rest);
      if rest[i] != x {
        assert multiset(tail)[rest[i]] == multiset(rest)[rest[i]] > 0;
        assert rest[i] in tail;
        var k :| 0 <= k < |tail| && tail[k] == rest[i];
        assert ([h] + tail)[0] == h && ([h] + tail)[k + 1] == rest[i];
      }
    }
  }

  /** A head whose key bounds every element keeps a descending list descending. */
  lemma ConsSorted<T>(h: T, rest: seq<T>, key: T -> int)
    requires SortedDesc(rest, key)
    requires forall i :: 0 <= i < |rest| ==> key(h) >= key(rest[i])
    ensures SortedDesc([h] + rest, key)
  {
    forall i, j | 0 <= i < j < |[h] + rest|
      ensures key(([h] + rest)[i]) >= key(([h] + rest)[j])
    {
      if i > 0 {
        assert ([h] + rest)[i] == rest[i - 1];
      }
      assert ([h] + rest)[j] == rest[j - 1];
    }
  }

  /** The rows ordered by `key`, largest first. */
  function InsertionSort<T>(xs: seq<T>, key: T -> int): (r: seq<T>)
    ensures SortedDesc(r, key)
    ensures multiset(r) == multiset(xs)
    ensures |r| == |xs|
  {
    if |xs| == 0 then []
    else
      assert xs == [xs[0]] + xs[1..];
      Insert(xs[0], InsertionSort(xs[1..], key), key)
  }
}

=== FILE: store.dfy ===
/**
  The four tables as in-memory sequences (user, topic, message and the vote
  table), the joins the queries make, and the single-table statements that
  several handlers share.
*/
module Store {
  import opened Wrappers
  import opened Text
  import Votes

  datatype User = User(
    id: int, username: string, mail: string, passwordHash: string,
    roleId: int, topicCount: int, lastConnection: Option<int>)

  datatype Topic = Topic(
    id: int, title: string, description: string, tags: string,
    userId: int, stateId: int, createdAt: int)

  datatype Message = Message(id: int, content: string, createdAt: int, userId: int, topicId: int)

  /** The database; the counters are the tables' next auto-increment ids. */
  datatype Db = Db(
    users: seq<User>, topics: seq<Topic>, messages: seq<Message>, votes: seq<Votes.VoteRow>,
    nextUserId: int, nextTopicId: int, nextMessageId: int)

  // ---------------------------------------------------------------------------
  // Single-row lookups: the first matching row, as QueryRow returns it.
  // ---------------------------------------------------------------------------

  function UserById(users: seq<User>, id: int): (r: Option<User>)
    ensures r.None? <==> forall i :: 0 <= i < |users| ==> users[i].id != id
    ensures r.Some? ==> r.value in users && r.value.id == id
  {
    if |users| == 0 then None
    else if users[0].id == id then Some(users[0])
    else UserById(users[1..], id)
  }

  function UserByName(users: seq<User>, name: string): (r: Option<User>)
    ensures r.None? <==> forall i :: 0 <= i < |users| ==> users[i].username != name
    ensures r.Some? ==> r.value in users && r.value.username == name
  {
    if |users| == 0 then None
    else if users[0].username == name then Some(users[0])
    else UserByName(users[1..], name)
  }

  function TopicById(topics: seq<Topic>, id: int): (r: Option<Topic>)
    ensures r.None? <==> forall i :: 0 <= i < |topics| ==> topics[i].id != id
    ensures r.Some? ==> r.value in topics && r.value.id == id
  {
    if |topics| == 0 then None
    else if topics[0].id == id then Some(topics[0])
    else TopicById(topics[1..], id)
  }

  /** Usernames and mail addresses are each held by at most one user. */
  ghost predicate UniqueCredentials(users: seq<User>) {
    forall i, j :: 0 <= i < j < |users| ==>
      users[i].username != users[j].username && users[i].mail != users[j].mail
  }

  // ---------------------------------------------------------------------------
  // UPDATE user ... WHERE user_id = id
  // ---------------------------------------------------------------------------

  /** `UPDATE user SET topic_nbr = topic_nbr + 1 WHERE user_id = id`. */
  function BumpTopicCount(users: seq<User>, id: int): (r: seq<User>)
    ensures |r| == |users|
    ensures forall i :: 0 <= i < |users| && users[i].id == id ==>
              r[i] == users[i].(topicCount := users[i].topicCount + 1)
    ensures forall i :: 0 <= i < |users| && users[i].id != id ==> r[i] == users[i]
  {
    if |users| == 0 then []
    else
      [if users[0].id == id then users[0].(topicCount := users[0].topicCount + 1) else users[0]]
      + BumpTopicCount(users[1..], id)
  }

  /** Ids are held by at most one user (the table's primary key). */
  ghost predicate UniqueIds(users: seq<User>) {
    forall i, j :: 0 <= i < j < |users| ==> users[i].id != users[j].id
  }

  /** Every topic id lies below the next one to be handed out (the auto-increment counter). */
  ghost predicate TopicIdsBelowCounter(db: Db) {
    forall i :: 0 <= i < |db.topics| ==> db.topics[i].id < db.nextTopicId
  }

  /** The number of rows the WHERE clause `user_id = id` selects. */
  function IdCount(users: seq<User>, id: int): nat {
    if |users| == 0 then 0
    else (if users[0].id == id then 1 else 0) + IdCount(users[1..], id)
  }

  /** The sum of every user's topic counter. */
  function TopicTotal(users: seq<User>): int {
    if |users| == 0 then 0 else users[0].topicCount + TopicTotal(users[1..])
  }

  /** The counter update adds one per selected row, so the total grows by the number of rows selected. */
  lemma {:induction false} BumpAddsIdCount(users: seq<User>, id: int)
    ensures TopicTotal(BumpTopicCount(users, id)) == TopicTotal(users) + IdCount(users, id)
  {
    if |users| > 0 {
      var r := BumpTopicCount(users, id);
      assert r[1..] == BumpTopicCount(users[1..], id);
      BumpAddsIdCount(users[1..], id);
    }
  }

  /** Under a primary key an id selects one row if some user holds it and none otherwise. */
  lemma {:induction false} UniqueIdCount(users: seq<User>, id: int)
    requires UniqueIds(users)
    ensures IdCount(users, id) == if UserById(users, id).Some? then 1 else 0
  {
    if |users| > 0 {
      assert UniqueIds(users[1..]) by {
        forall i, j | 0 <= i < j < |users[1..]|
          ensures users[1..][i].id != users[1..][j].id
        {
          assert users[1..][i] == users[i + 1] && users[1..][j] == users[j + 1];
        }
      }
      UniqueIdCount(users[1..], id);
      if users[0].id == id {
        assert forall i :: 0 <= i < |users[1..]| ==> users[1..][i].id != id by {
          forall i | 0 <= i < |users[1..]|
            ensures users[1..][i].id != id
          {
            assert users[1..][i] == users[i + 1];
          }
        }
      }
    }
  }

  /** `UPDATE user SET last_connection = NOW() WHERE user_id = id`. */
  function TouchLastConnection(users: seq<User>, id: int, now: int): (r: seq<User>)
    ensures |r| == |users|
    ensures forall i :: 0 <= i < |users| && users[i].id == id ==>
              r[i] == users[i].(lastConnection := Some(now))
    ensures forall i :: 0 <= i < |users| && users[i].id != id ==> r[i] == users[i]
  {
    if |users| == 0 then []
    else
      [if users[0].id == id then users[0].(lastConnection := Some(now)) else users[0]]
      + TouchLastConnection(users[1..], id, now)
  }

  // ---------------------------------------------------------------------------
  // Topics joined with their author and their vote counts.
  // ---------------------------------------------------------------------------

  /** A topic row of the listing and detail queries; `createdAt` is the sort key. */
  datatype TopicView = TopicView(
    id: int, title: string, description: string, tags: string, userId: int,
    username: string, stateId: int, likes: nat, dislikes: nat, createdAt: int)

  /**
    The topic joined with its author: no row when the author is missing
    (inner join); likes and dislikes are the topic's vote rows per flag.
  */
  function ViewOf(db: Db, t: Topic): (r: Option<TopicView>)
    ensures r.Some? <==> UserById(db.users, t.userId).Some?
    ensures r.Some? ==>
              && r.value.id == t.id && r.value.tags == t.tags && r.value.createdAt == t.createdAt
              && r.value.title == t.title && r.value.description == t.description
              && r.value.userId == t.userId && r.value.stateId == t.stateId
              && r.value.username == UserById(db.users, t.userId).value.username
              && r.value.likes == Votes.Tally(db.votes, t.id, true)
              && r.value.dislikes == Votes.Tally(db.votes, t.id, false)
  {
    match UserById(db.users, t.userId)
    case None => None
    case Some(u) =>
      Some(TopicView(t.id, t.title, t.description, t.tags, t.userId, u.username, t.stateId,
                     Votes.Tally(db.votes, t.id, true), Votes.Tally(db.votes, t.id, false), t.createdAt))
  }

  /** How many of the rows `ts` join to the view `v`. */
  ghost function ViewCount(db: Db, ts: seq<Topic>, v: TopicView): nat {
    if |ts| == 0 then 0
    else (if ViewOf(db, ts[0]) == Some(v) then 1 else 0) + ViewCount(db, ts[1..], v)
  }

  /** Every joined topic row, in table order: each view as often as rows join to it. */
  function ViewsOf(db: Db, ts: seq<Topic>): (r: seq<TopicView>)
    ensures forall v :: v in r <==> exists i :: 0 <= i < |ts| && ViewOf(db, ts[i]) == Some(v)
    ensures forall v :: multiset(r)[v] == ViewCount(db, ts, v)
    ensures |r| <= |ts|
  {
    if |ts| == 0 then []
    else
      var rest := ViewsOf(db, ts[1..]);
      JoinedInTail(db, ts);
      match ViewOf(db, ts[0])
      case None =>
        assert forall w :: ViewCount(db, ts, w) == ViewCount(db, ts[1..], w);
        rest
      case Some(v) =>
        assert forall w :: ViewCount(db, ts, w) == (if v == w then 1 else 0) + ViewCount(db, ts[1..], w);
        assert multiset([v] + rest) == multiset{v} + multiset(rest);
        [v] + rest
  }

  /** A view comes from some row of the tail exactly when it comes from a row after the first. */
  lemma JoinedInTail(db: Db, ts: seq<Topic>)
    requires |ts| > 0
    ensures forall v :: (exists i :: 0 <= i < |ts[1..]| && ViewOf(db, ts[1..][i]) == Some(v))
                        <==> (exists i :: 1 <= i < |ts| && ViewOf(db, ts[i]) == Some(v))
  {
    forall v | exists i :: 1 <= i < |ts| && ViewOf(db, ts[i]) == Some(v)
      ensures exists i :: 0 <= i < |ts[1..]| && ViewOf(db, ts[1..][i]) == Some(v)
    {
      var i :| 1 <= i < |ts| && ViewOf(db, ts[i]) == Some(v);
      assert ts[1..][i - 1] == ts[i];
    }
  }

  function Views(db: Db): seq<TopicView> {
    ViewsOf(db, db.topics)
  }

  // ---------------------------------------------------------------------------
  // Messages.
  // ---------------------------------------------------------------------------

  datatype MessageView = MessageView(
    id: int, content: string, createdAt: int, userId: int, username: string, topicId: int)

  /** The joined row a message gives when its author exists. */
  ghost predicate JoinsTo(db: Db, x: Message, topicId: int, m: MessageView) {
    && x.topicId == topicId
    && UserById(db.users, x.userId).Some?
    && m == MessageView(x.id, x.content, x.createdAt, x.userId, UserById(db.users, x.userId).value.username, topicId)
  }

  /** How many of the rows `ms` join to the message row `m`. */
  ghost function MessageCount(db: Db, ms: seq<Message>, topicId: int, m: MessageView): nat {
    if |ms| == 0 then 0
    else (if JoinsTo(db, ms[0], topicId, m) then 1 else 0) + MessageCount(db, ms[1..], topicId, m)
  }

  /** The topic's messages joined with their author, in table order, each as often as rows join to it. */
  function MessagesOf(db: Db, ms: seq<Message>, topicId: int): (r: seq<MessageView>)
    ensures forall m :: m in r ==> m.topicId == topicId
    ensures forall m :: multiset(r)[m] == MessageCount(db, ms, topicId, m)
    ensures |r| <= |ms|
    ensures forall m :: m in r <==>
              exists i :: 0 <= i < |ms| && ms[i].topicId == topicId
                && UserById(db.users, ms[i].userId).Some?
                && m == MessageView(ms[i].id, ms[i].content, ms[i].createdAt, ms[i].userId,
                                    UserById(db.users, ms[i].userId).value.username, topicId)
  {
    if |ms| == 0 then []
    else
      var rest := MessagesOf(db, ms[1..], topicId);
      var m := ms[0];
      assert forall k :: 1 <= k < |ms| ==> ms[k] == ms[1..][k - 1];
      if m.topicId == topicId && UserById(db.users, m.userId).Some? then
        [MessageView(m.id, m.content, m.createdAt, m.userId, UserById(db.users, m.userId).value.username, topicId)]
        + rest
      else rest
  }

  /**
    `INSERT INTO message (content, topic_id, user_id)` with the topic id as the
    form sent it. The store accepts it only when it reads as an integer.
  */
  function InsertMessage(db: Db, content: string, topicText: string, userId: int, now: int): (r: Option<Db>)
    ensures r.Some? <==> Atoi(topicText).Some?
    ensures r.Some? ==>
              r.value == db.(messages := db.messages + [Message(db.nextMessageId, content, now, userId, Atoi(topicText).value)],
                             nextMessageId := db.nextMessageId + 1)
  {
    match Atoi(topicText)
    case None => None
    case Some(tid) =>
      Some(db.(messages := db.messages + [Message(db.nextMessageId, content, now, userId, tid)],
               nextMessageId := db.nextMessageId + 1))
  }
}

=== FILE: tags.dfy ===
/**
  A topic's tags are stored as one string: the selected tags joined by ", ".
  The listing filters that string with three SQL LIKE patterns and one
  equality. This module models both and proves that, for tags free of
  commas and LIKE wildcards (every theme id is), the filter accepts a
  stored string exactly when the selected tag is one of the joined tags.
*/
module Tags {
  import opened Text

  const Separator: string := ", "

  /** Go's strings.Join(xs, ", "). */
  function Join(xs: seq<string>): string {
    if |xs| == 0 then ""
    else if |xs| == 1 then xs[0]
    else xs[0] + Separator + Join(xs[1..])
  }

  predicate AllNoComma(xs: seq<string>) {
    forall i :: 0 <= i < |xs| ==> NoComma(xs[i])
  }

  // ---------------------------------------------------------------------------
  // SQL LIKE: '%' matches any run of characters, '_' any single character,
  // and a backslash makes the next pattern character literal.
  // ---------------------------------------------------------------------------

  predicate IsWildcard(c: char) {
    c == '%' || c == '_' || c == '\\'
  }

  predicate NoWildcards(t: string) {
    forall i :: 0 <= i < |t| ==> !IsWildcard(t[i])
  }

  function LikeMatch(s: string, p: string): bool
    decreases |s| + |p|
  {
    if |p| == 0 then |s| == 0
    else if p[0] == '%' then LikeMatch(s, p[1..]) || (0 < |s| && LikeMatch(s[1..], p))
    else if p[0] == '_' then 0 < |s| && LikeMatch(s[1..], p[1..])
    else if p[0] == '\\' && 2 <= |p| then 0 < |s| && s[0] == p[1] && LikeMatch(s[1..], p[2..])
    else 0 < |s| && s[0] == p[0] && LikeMatch(s[1..], p[1..])
  }

  /** A wildcard-free pattern head must match literally. */
  lemma {:induction false} LikeLiteral(s: string, t: string, p: string)
    requires NoWildcards(t)
    ensures LikeMatch(s, t + p) <==> HasPrefix(s, t) && LikeMatch(s[|t|..], p)
    decreases |t|
  {
    if |t| == 0 {
      assert t + p == p;
      assert s[|t|..] == s;
    } else {
      var tp := t + p;
      assert tp[0] == t[0] && !IsWildcard(t[0]);
      assert tp[1..] == t[1..] + p;
      if 0 < |s| {
        LikeLiteral(s[1..], t[1..], p);
        if |t| <= |s| {
          assert s[1..][|t| - 1..] == s[|t|..];
        }
        assert HasPrefix(s, t) <==> s[0] == t[0] && HasPrefix(s[1..], t[1..]) by {
          if |t| <= |s| {
            assert s[..|t|] == [s[0]] + s[1..][..|t| - 1];
            assert t == [t[0]] + t[1..];
          }
        }
      }
    }
  }

  /** "%" matches everything. */
  lemma {:induction false} LikeAnything(s: string)
    ensures LikeMatch(s, "%")
    decreases |s|
  {
    assert "%"[1..] == "";
    if 0 < |s| {
      LikeAnything(s[1..]);
    }
  }

  /** A leading '%' lets the rest of the pattern match any suffix. */
  lemma {:induction false} LikeLeadingPercent(s: string, p: string)
    ensures LikeMatch(s, "%" + p) <==> exists k :: 0 <= k <= |s| && LikeMatch(s[k..], p)
    decreases |s|
  {
    var q := "%" + p;
    assert q[0] == '%' && q[1..] == p;
    assert s[0..] == s;
    if 0 < |s| {
      LikeLeadingPercent(s[1..], p);
      if LikeMatch(s, q) && !LikeMatch(s, p) {
        var k :| 0 <= k <= |s| - 1 && LikeMatch(s[1..][k..], p);
        assert s[1..][k..] == s[k + 1..];
      }
      if exists k :: 0 <= k <= |s| && LikeMatch(s[k..], p) {
        var k :| 0 <= k <= |s| && LikeMatch(s[k..], p);
        if 0 < k {
          assert s[1..][k - 1..] == s[k..];
        }
      }
    }
  }

  /** A wildcard-free pattern matches only itself. */
  lemma LikeExact(s: string, t: string)
    requires NoWildcards(t)
    ensures LikeMatch(s, t) <==> s == t
  {
    LikeLiteral(s, t, "");
    assert t + "" == t;
  }

  lemma LikeStartsWith(s: string, t: string)
    requires NoWildcards(t)
    ensures LikeMatch(s, t + ", %") <==> HasPrefix(s, t + Separator)
  {
    var lit := t + Separator;
    assert NoWildcards(lit);
    assert t + ", %" == lit + "%";
    LikeLiteral(s, lit, "%");
    if HasPrefix(s, lit) {
      LikeAnything(s[|lit|..]);
    }
  }

  lemma LikeEndsWith(s: string, t: string)
    requires NoWildcards(t)
    ensures LikeMatch(s, "%, " + t) <==> HasSuffix(s, Separator + t)
  {
    var lit := Separator + t;
    assert NoWildcards(lit);
    assert "%, " + t == "%" + lit;
    LikeLeadingPercent(s, lit);
    if HasSuffix(s, lit) {
      LikeExact(s[|s| - |lit|..], lit);
    }
    if LikeMatch(s, "%" + lit) {
      var k :| 0 <= k <= |s| && LikeMatch(s[k..], lit);
      LikeExact(s[k..], lit);
    }
  }

  lemma LikeContains(s: string, t: string)
    requires NoWildcards(t)
    ensures LikeMatch(s, "%, " + t + ", %") <==> HasInfix(s, Separator + t + Separator)
  {
    var lit := Separator + t + Separator;
    assert NoWildcards(lit);
    assert "%, " + t + ", %" == "%" + (lit + "%");
    LikeLeadingPercent(s, lit + "%");
    if HasInfix(s, lit) {
      var k :| 0 <= k <= |s| && OccursAt(s, lit, k);
      LikeLiteral(s[k..], lit, "%");
      assert s[k..][..|lit|] == s[k..k + |lit|];
      LikeAnything(s[k..][|lit|..]);
    }
    if LikeMatch(s, "%" + (lit + "%")) {
      var k :| 0 <= k <= |s| && LikeMatch(s[k..], lit + "%");
      LikeLiteral(s[k..], lit, "%");
      assert s[k..][..|lit|] == s[k..k + |lit|];
      assert OccursAt(s, lit, k);
    }
  }

  // ---------------------------------------------------------------------------
  // The listing's WHERE clause for a selected tag t.
  // ---------------------------------------------------------------------------

  /** `tags LIKE 't, %' OR tags LIKE '%, t, %' OR tags LIKE '%, t' OR tags = 't'`. */
  predicate TagFilter(t: string, tags: string) {
    LikeMatch(tags, t + ", %")
    || LikeMatch(tags, "%, " + t + ", %")
    || LikeMatch(tags, "%, " + t)
    || tags == t
  }

  /** The four literal tests a wildcard-free tag's clause comes down to. */
  ghost predicate FourPatterns(t: string, s: string) {
    || s == t
    || HasPrefix(s, t + Separator)
    || HasInfix(s, Separator + t + Separator)
    || HasSuffix(s, Separator + t)
  }

  /** For a wildcard-free tag the clause is four literal tests. */
  lemma TagFilterPatterns(t: string, s: string)
    requires NoWildcards(t)
    ensures TagFilter(t, s) <==> FourPatterns(t, s)
  {
    LikeStartsWith(s, t);
    LikeContains(s, t);
    LikeEndsWith(s, t);
  }

  // ---------------------------------------------------------------------------
  // Completeness: every joined tag is found by the filter.
  // ---------------------------------------------------------------------------

  /** A string occurs in a concatenation right after the part in front of it. */
  lemma OccursInMiddle(a: string, b: string, c: string)
    ensures OccursAt(a + b + c, b, |a|)
  {
    assert (a + b + c)[|a|..|a| + |b|] == b;
  }

  /** A comma at position k means the comma-free run at the start of the string ends by k. */
  lemma CommaNotBefore(s: string, m: nat, k: nat)
    requires k < |s| && s[k] == ','
    requires forall i :: 0 <= i < m && i < |s| ==> s[i] != ','
    ensures m <= k
  {
  }

  /** Whatever the filter finds in a join is still found after a tag is put in front. */
  lemma FoundBehindFirst(x0: string, j: string, t: string)
    requires FourPatterns(t, j)
    ensures FourPatterns(t, x0 + Separator + j)
  {
    var s := x0 + Separator + j;
    var off := |x0| + 2;
    var lit := Separator + t + Separator;
    assert s[off..] == j;
    if j == t {
      assert s[|s| - |Separator + t|..] == Separator + t;
    } else if HasPrefix(j, t + Separator) {
      var r := j[|t| + 2..];
      assert j == t + Separator + r;
      assert s == x0 + lit + r;
      OccursInMiddle(x0, lit, r);
    } else if HasInfix(j, lit) {
      var k :| 0 <= k <= |j| && OccursAt(j, lit, k);
      assert s[off + k..off + k + |lit|] == j[k..k + |lit|];
      assert OccursAt(s, lit, off + k);
    } else {
      assert s[|s| - |Separator + t|..] == j[|j| - |Separator + t|..];
    }
  }

  lemma {:induction false} JoinedMemberFound(xs: seq<string>, t: string)
    requires t in xs
    ensures FourPatterns(t, Join(xs))
    decreases |xs|
  {
    if 2 <= |xs| {
      var s := Join(xs);
      assert s == xs[0] + Separator + Join(xs[1..]);
      if xs[0] == t {
        assert s[..|t + Separator|] == t + Separator;
      } else {
        assert t in xs[1..];
        JoinedMemberFound(xs[1..], t);
        FoundBehindFirst(xs[0], Join(xs[1..]), t);
      }
    }
  }

  // ---------------------------------------------------------------------------
  // Soundness: with comma-free tags nothing but a joined tag is found.
  // ---------------------------------------------------------------------------

  lemma {:induction false} ShortJoinHasNoComma(xs: seq<string>)
    requires |xs| <= 1 && AllNoComma(xs)
    ensures NoComma(Join(xs))
  {
  }

  /** In a join of two or more tags the first separator sits right after the first tag. */
  lemma JoinSplit(xs: seq<string>)
    requires 2 <= |xs|
    ensures Join(xs) == xs[0] + Separator + Join(xs[1..])
    ensures Join(xs)[|xs[0]|] == ',' && Join(xs)[|xs[0]| + 1] == ' '
    ensures forall i :: 0 <= i < |xs[0]| ==> Join(xs)[i] == xs[0][i]
    ensures Join(xs)[|xs[0]| + 2..] == Join(xs[1..])
  {
  }

  lemma ExactSound(xs: seq<string>, t: string)
    requires AllNoComma(xs) && NoComma(t) && 0 < |xs|
    requires Join(xs) == t
    ensures t in xs
  {
    if 2 <= |xs| {
      JoinSplit(xs);
      assert false;
    }
  }

  lemma PrefixSound(xs: seq<string>, t: string)
    requires AllNoComma(xs) && NoComma(t)
    requires HasPrefix(Join(xs), t + Separator)
    ensures 2 <= |xs| && xs[0] == t
  {
    var s := Join(xs);
    assert s[|t|] == (t + Separator)[|t|] == ',';
    if |xs| <= 1 {
      ShortJoinHasNoComma(xs);
      assert false;
    }
    JoinSplit(xs);
    var a := |xs[0]|;
    assert forall i :: 0 <= i < |t| ==> s[i] == (t + Separator)[i] == t[i];
    CommaNotBefore(s, a, |t|);
    CommaNotBefore(s, |t|, a);
    assert s[..a] == xs[0];
    assert s[..|t|] == t;
  }

  lemma {:induction false} InfixSound(xs: seq<string>, t: string)
    requires AllNoComma(xs) && NoComma(t)
    requires HasInfix(Join(xs), Separator + t + Separator)
    ensures t in xs
    decreases |xs|
  {
    var s := Join(xs);
    var lit := Separator + t + Separator;
    var k :| 0 <= k <= |s| && OccursAt(s, lit, k);
    assert s[k] == lit[0] == ',';
    if |xs| <= 1 {
      ShortJoinHasNoComma(xs);
      assert false;
    }
    JoinSplit(xs);
    var a := |xs[0]|;
    var rest := xs[1..];
    var j := Join(rest);
    assert AllNoComma(rest);
    CommaNotBefore(s, a, k);
    assert k != a + 1 by {
      assert s[a + 1] == ' ';
    }
    if k == a {
      AfterFirstSeparator(xs[0], j, t);
      PrefixSound(rest, t);
      assert rest[0] in xs;
    } else {
      ShiftPastFirst(xs[0], j, lit, k);
      InfixSound(rest, t);
      assert forall x :: x in rest ==> x in xs;
    }
  }

  /** A ", t, " found at the first separator makes the rest of the join start with "t, ". */
  lemma AfterFirstSeparator(x0: string, j: string, t: string)
    requires OccursAt(x0 + Separator + j, Separator + t + Separator, |x0|)
    ensures HasPrefix(j, t + Separator)
  {
    var s := x0 + Separator + j;
    var lit := Separator + t + Separator;
    assert j == s[|x0| + 2..];
    assert j[..|t| + 2] == s[|x0| + 2..|x0| + |lit|] == lit[2..];
  }

  /** An occurrence past the first separator is an occurrence in the rest of the join. */
  lemma ShiftPastFirst(x0: string, j: string, q: string, k: int)
    requires OccursAt(x0 + Separator + j, q, k) && |x0| + 2 <= k
    ensures OccursAt(j, q, k - |x0| - 2)
  {
    var s := x0 + Separator + j;
    assert j == s[|x0| + 2..];
    assert j[k - |x0| - 2..k - |x0| - 2 + |q|] == s[k..k + |q|];
  }

  lemma {:induction false} SuffixSound(xs: seq<string>, t: string)
    requires AllNoComma(xs) && NoComma(t)
    requires HasSuffix(Join(xs), Separator + t)
    ensures t in xs
    decreases |xs|
  {
    var s := Join(xs);
    var lit := Separator + t;
    var k := |s| - |lit|;
    assert s[k] == s[k..][0] == lit[0] == ',';
    if |xs| <= 1 {
      ShortJoinHasNoComma(xs);
      assert false;
    }
    JoinSplit(xs);
    var a := |xs[0]|;
    var rest := xs[1..];
    var j := Join(rest);
    assert AllNoComma(rest);
    CommaNotBefore(s, a, k);
    assert k != a + 1 by {
      assert s[a + 1] == ' ';
    }
    if k == a {
      assert j == t by {
        assert j == s[a + 2..];
        assert s[k..] == lit;
      }
      ExactSound(rest, t);
      assert rest[0] in xs;
      assert forall x :: x in rest ==> x in xs;
    } else {
      assert HasSuffix(j, lit) by {
        assert j == s[a + 2..];
        assert j[|j| - |lit|..] == s[k..];
      }
      SuffixSound(rest, t);
      assert forall x :: x in rest ==> x in xs;
    }
  }

  /**
    The filter is membership: for a non-empty tag free of commas and
    wildcards, and a list of comma-free tags, the listing's WHERE clause
    accepts the joined string exactly when the tag is in the list.
  */
  lemma TagFilterIsMembership(xs: seq<string>, t: string)
    requires t != "" && NoComma(t) && NoWildcards(t) && AllNoComma(xs)
    ensures TagFilter(t, Join(xs)) <==> t in xs
  {
    var s := Join(xs);
    TagFilterPatterns(t, s);
    if t in xs {
      JoinedMemberFound(xs, t);
    }
    if TagFilter(t, s) {
      if s == t {
        if |xs| == 0 {
          assert false;
        }
        ExactSound(xs, t);
      } else if HasPrefix(s, t + Separator) {
        PrefixSound(xs, t);
      } else if HasInfix(s, Separator + t + Separator) {
        InfixSound(xs, t);
      } else {
        SuffixSound(xs, t);
      }
    }
  }

  /** Two tags joined in form order, and the empty selection. */
  lemma JoinExamples()
    ensures Join(["sport", "musique"]) == "sport, musique"
    ensures Join([]) == ""
  {
    assert ["sport", "musique"][1..] == ["musique"];
  }

  /** A tag that is only a substring of a stored tag is not matched. */
  lemma SubstringIsNotMatched()
    ensures !TagFilter("art", "startup")
    ensures TagFilter("art", "startup, art")
  {
    assert NoWildcards("art");
    TagFilterPatterns("art", "startup");
    TagFilterPatterns("art", "startup, art");
    assert !HasPrefix("startup", "art, ") by { assert "startup"[..5] != "art, "; }
    assert !HasSuffix("startup", ", art") by { assert "startup"[2] != ','; }
    assert !HasInfix("startup", ", art, ");
    assert "startup, art"[7..] == ", art";
  }

  /** A selected tag containing '_' reaches past the literal patterns. */
  lemma WildcardTagOvermatches()
    ensures TagFilter("_rt", "art, sport") && !("_rt" in ["art", "sport"])
  {
    var p := "_rt" + ", %";
    assert p == "_rt, %";
    assert p[1..] == "rt, %";
    LikeAnything("sport");
    assert LikeMatch("art, sport", p) by {
      assert "art, sport"[1..] == "rt, sport";
      LikeLiteral("rt, sport", "rt, ", "%");
      assert "rt, " + "%" == "rt, %";
      assert "rt, sport"[..4] == "rt, ";
      assert "rt, sport"[4..] == "sport";
    }
  }
}

=== FILE: text.dfy ===
/** String facts the handlers rely on: affixes, Go's byte length, and strconv.Atoi. */
module Text {
  import opened Wrappers

  predicate HasPrefix(s: string, p: string) {
    |p| <= |s| && s[..|p|] == p
  }

  predicate HasSuffix(s: string, q: string) {
    |q| <= |s| && s[|s| - |q|..] == q
  }

  /** `q` occurs in `s` starting at position `k`. */
  predicate OccursAt(s: string, q: string, k: int) {
    0 <= k && k + |q| <= |s| && s[k..k + |q|] == q
  }

  /** `q` occurs somewhere inside `s`. */
  predicate HasInfix(s: string, q: string) {
    exists k :: 0 <= k <= |s| && OccursAt(s, q, k)
  }

  predicate NoComma(s: string) {
    forall i :: 0 <= i < |s| ==> s[i] != ','
  }

  // ---------------------------------------------------------------------------
  // Go's len on a string counts the bytes of its UTF-8 encoding.
  // ---------------------------------------------------------------------------

  /** Number of bytes UTF-8 uses for one Unicode scalar value. */
  function Utf8Width(c: char): nat {
    if c as int < 0x80 then 1
    else if c as int < 0x800 then 2
    else if c as int < 0x1_0000 then 3
    else 4
  }

  /** `len(s)` in Go: the UTF-8 byte count, never below the character count. */
  function ByteLength(s: string): (n: nat)
    ensures |s| <= n <= 4 * |s|
    ensures (forall i :: 0 <= i < |s| ==> s[i] as int < 0x80) ==> n == |s|
  {
    if |s| == 0 then 0 else Utf8Width(s[0]) + ByteLength(s[1..])
  }

  // ---------------------------------------------------------------------------
  // strconv.Atoi on a 64-bit platform: an optional sign, then one or more
  // ASCII digits, with a value inside the int64 range; anything else fails.
  // ---------------------------------------------------------------------------

  const MinInt64: int := -0x8000_0000_0000_0000
  const MaxInt64: int := 0x7FFF_FFFF_FFFF_FFFF

  predicate IsDigit(c: char) {
    '0' <= c <= '9'
  }

  predicate AllDigits(s: string) {
    forall i :: 0 <= i < |s| ==> IsDigit(s[i])
  }

  /** The value of a string of decimal digits, most significant first. */
  function DigitsValue(s: string): nat
    requires AllDigits(s)
  {
    if |s| == 0 then 0
    else DigitsValue(s[..|s| - 1]) * 10 + (s[|s| - 1] as int - '0' as int)
  }

  function Atoi(s: string): (r: Option<int>)
    ensures r.Some? ==> MinInt64 <= r.value <= MaxInt64
    ensures r.Some? ==> 0 < |s| && (IsDigit(s[0]) || s[0] == '+' || s[0] == '-')
    ensures r.Some? <==>
              var digits := if 0 < |s| && (s[0] == '+' || s[0] == '-') then s[1..] else s;
              0 < |digits| && AllDigits(digits)
              && MinInt64 <= (if 0 < |s| && s[0] == '-' then -(DigitsValue(digits) as int) else DigitsValue(digits)) <= MaxInt64
  {
    if |s| == 0 then None
    else
      var digits := if s[0] == '+' || s[0] == '-' then s[1..] else s;
      if |digits| == 0 || !AllDigits(digits) then None
      else
        var v := if s[0] == '-' then -(DigitsValue(digits) as int) else DigitsValue(digits);
        if MinInt64 <= v <= MaxInt64 then Some(v) else None
  }

  // ---------------------------------------------------------------------------
  // Decimal rendering, the inverse Atoi is checked against.
  // ---------------------------------------------------------------------------

  function DigitChar(d: nat): char
    requires d < 10
  {
    ('0' as int + d) as char
  }

  /** Shortest decimal spelling of a natural number. */
  function DecimalDigits(n: nat): string
    decreases n
  {
    if n < 10 then [DigitChar(n)] else DecimalDigits(n / 10) + [DigitChar(n % 10)]
  }

  function Itoa(n: int): string {
    if n < 0 then "-" + DecimalDigits(-n) else DecimalDigits(n)
  }

  lemma {:induction false} DecimalDigitsValue(n: nat)
    ensures 0 < |DecimalDigits(n)|
    ensures AllDigits(DecimalDigits(n))
    ensures DigitsValue(DecimalDigits(n)) == n
    decreases n
  {
    var s := DecimalDigits(n);
    if n >= 10 {
      DecimalDigitsValue(n / 10);
      var p := DecimalDigits(n / 10);
      assert s == p + [DigitChar(n % 10)];
      assert s[..|s| - 1] == p;
    }
  }

  /** Atoi reads back every int64 that Itoa writes. */
  lemma AtoiItoa(n: int)
    requires MinInt64 <= n <= MaxInt64
    ensures Atoi(Itoa(n)) == Some(n)
  {
    var s := Itoa(n);
    if n < 0 {
      DecimalDigitsValue(-n);
      assert s[0] == '-';
      assert s[1..] == DecimalDigits(-n);
    } else {
      DecimalDigitsValue(n);
      assert IsDigit(s[0]);
    }
  }

  /** Neither the empty string nor a lone sign is a number. */
  lemma AtoiRejectsEmptyAndSign()
    ensures Atoi("") == None && Atoi("-") == None && Atoi("+") == None
    ensures Atoi("12a") == None
    ensures Atoi("+7") == Some(7) && Atoi("-42") == Some(-42)
  {
    assert !AllDigits("12a") by { assert !IsDigit("12a"[2]); }
    assert "+7"[1..] == "7";
    assert "-42"[1..] == "42";
    assert "42"[..1] == "4";
  }
}

=== FILE: themes.dfy ===
/** The fixed theme table: the tag vocabulary and the listing's filter choices. */
module Themes {
  import opened Wrappers
  import opened Text
  import Tags

  /** A theme's id and its display label (`caption`, since `label` is reserved in Dafny). */
  datatype Theme = Theme(id: string, caption: string)

  const Table: seq<Theme> := [
    Theme("technologie", "Technologie"),
    Theme("sport", "Sport"),
    Theme("musique", "Musique"),
    Theme("cinema", "Cin\U{e9}ma"),
    Theme("litterature", "Litt\U{e9}rature"),
    Theme("cuisine", "Cuisine"),
    Theme("voyage", "Voyage"),
    Theme("science", "Science"),
    Theme("art", "Art"),
    Theme("jeux", "Jeux"),
    Theme("mode", "Mode"),
    Theme("sante", "Sant\U{e9}"),
    Theme("education", "\U{c9}ducation"),
    Theme("politique", "Politique"),
    Theme("economie", "\U{c9}conomie"),
    Theme("environnement", "Environnement"),
    Theme("histoire", "Histoire"),
    Theme("philosophie", "Philosophie"),
    Theme("psychologie", "Psychologie"),
    Theme("societe", "Soci\U{e9}t\U{e9}")
  ]

  /** A non-empty run of lower-case ASCII letters. */
  predicate IsWord(s: string) {
    0 < |s| && forall i :: 0 <= i < |s| ==> 'a' <= s[i] <= 'z'
  }

  predicate IsThemeId(id: string) {
    exists i :: 0 <= i < |Table| && Table[i].id == id
  }

  /** The display label of a theme id, if it names a theme. */
  function LabelOf(id: string): (r: Option<string>)
    ensures r.Some? <==> IsThemeId(id)
    ensures r.Some? ==> exists i :: 0 <= i < |Table| && Table[i] == Theme(id, r.value)
  {
    FindLabel(Table, id)
  }

  function FindLabel(themes: seq<Theme>, id: string): (r: Option<string>)
    ensures r.Some? <==> exists i :: 0 <= i < |themes| && themes[i].id == id
    ensures r.Some? ==> exists i :: 0 <= i < |themes| && themes[i] == Theme(id, r.value)
  {
    if |themes| == 0 then None
    else if themes[0].id == id then Some(themes[0].caption)
    else
      var r := FindLabel(themes[1..], id);
      assert r.Some? ==> exists i :: 1 <= i < |themes| && themes[i] == Theme(id, r.value) by {
        if r.Some? {
          var i :| 0 <= i < |themes[1..]| && themes[1..][i] == Theme(id, r.value);
          assert themes[i + 1] == Theme(id, r.value);
        }
      }
      assert (exists i :: 0 <= i < |themes[1..]| && themes[1..][i].id == id)
         <==> (exists i :: 0 <= i < |themes| && themes[i].id == id) by {
        if exists i :: 0 <= i < |themes| && themes[i].id == id {
          var i :| 0 <= i < |themes| && themes[i].id == id;
          assert themes[1..][i - 1].id == id;
        }
      }
      r
  }

  /** Twenty themes in fixed order, from "technologie" to "societe". */
  lemma TableShape()
    ensures |Table| == 20
    ensures Table[0] == Theme("technologie", "Technologie")
    ensures Table[19].id == "societe"
  {
  }

  /** Every id is a lower-case word, so it carries no comma, space or LIKE wildcard. */
  lemma IdsAreWords()
    ensures forall i :: 0 <= i < |Table| ==> IsWord(Table[i].id)
    ensures forall i :: 0 <= i < |Table| ==> NoComma(Table[i].id) && Tags.NoWildcards(Table[i].id)
  {
  }

  /** No two themes share an id. */
  lemma IdsDistinct()
    ensures forall i, j :: 0 <= i < j < |Table| ==> Table[i].id != Table[j].id
  {
    forall i, j | 0 <= i < j < |Table|
      ensures Table[i].id != Table[j].id
    {
      // the ids already differ in length or in one of their first three letters
      var a, b := Table[i].id, Table[j].id;
      assert |a| != |b| || a[0] != b[0] || a[1] != b[1] || a[2] != b[2];
    }
  }

  /** Each id has exactly one label; "art" is labelled "Art". */
  lemma LabelsAreUnique(id: string)
    requires IsThemeId(id)
    ensures forall i :: 0 <= i < |Table| && Table[i].id == id ==> LabelOf(id) == Some(Table[i].caption)
    ensures LabelOf("art") == Some("Art")
  {
    IdsDistinct();
    assert Table[8] == Theme("art", "Art");
  }
}

=== FILE: tokens.dfy ===
/**
  The identity token: HS256-signed claims carrying a user id, a username and
  an `exp` claim (section 4.1.4 of RFC 7519). Signing, signature checking and
  bcrypt are foreign code, so they enter as function values; the clock enters
  as an integer of Unix seconds.
*/
module Tokens {
  import opened Wrappers

  /** Name of the cookie that carries the token. */
  const CookieName: string := "token_form"

  /** Validity window of a token and of its cookie: 24 hours, in seconds. */
  const Lifetime: int := 24 * 60 * 60

  datatype Claims = Claims(userId: int, username: string, expiresAt: int)

  /**
    The primitives the handlers call but do not define:
    - sign: HS256 signing of the claims with the process-wide key (may fail);
    - parse: decoding a token string and checking its signature with that key,
      giving the claims it carries (fails on a malformed or forged token);
    - hash: bcrypt.GenerateFromPassword (may fail);
    - matches: bcrypt.CompareHashAndPassword(hash, password) succeeding.
  */
  datatype Crypto = Crypto(
    sign: Claims -> Option<string>,
    parse: string -> Option<Claims>,
    hash: string -> Option<string>,
    matches: (string, string) -> bool)

  /** A token signed with the key is read back with the same claims. */
  ghost predicate SignatureRoundTrip(c: Crypto) {
    forall cl :: c.sign(cl).Some? ==> c.parse(c.sign(cl).value) == Some(cl)
  }

  /** Claims for a token issued at `now`. */
  function IssueClaims(userId: int, username: string, now: int): (cl: Claims)
    ensures cl.userId == userId && cl.username == username
    ensures cl.expiresAt - now == Lifetime
  {
    Claims(userId, username, now + Lifetime)
  }

  /** `generateToken`: sign the claims issued at `now`. */
  function Generate(c: Crypto, userId: int, username: string, now: int): Option<string> {
    c.sign(IssueClaims(userId, username, now))
  }

  /**
    The standard-claims check made at parse time: an `exp` of zero means no
    expiry, otherwise the token is valid up to and including second `exp`.
  */
  predicate Unexpired(cl: Claims, now: int) {
    cl.expiresAt == 0 || now <= cl.expiresAt
  }

  /** `ParseWithClaims` succeeding with a valid token: the claims, or nothing. */
  function Verify(c: Crypto, token: string, now: int): (r: Option<Claims>)
    ensures r.Some? <==> c.parse(token).Some? && Unexpired(c.parse(token).value, now)
    ensures r.Some? ==> r.value == c.parse(token).value
  {
    match c.parse(token)
    case None => None
    case Some(cl) => if Unexpired(cl, now) then Some(cl) else None
  }

  /** An issued token verifies, with exactly the issued claims, throughout its 24 hours. */
  lemma IssuedTokenVerifies(c: Crypto, userId: int, username: string, now: int, later: int)
    requires SignatureRoundTrip(c)
    requires Generate(c, userId, username, now).Some?
    requires now <= later <= now + Lifetime
    ensures Verify(c, Generate(c, userId, username, now).value, later)
            == Some(Claims(userId, username, now + Lifetime))
  {
    var cl := IssueClaims(userId, username, now);
    assert c.parse(c.sign(cl).value) == Some(cl);
  }

  /** After its 24 hours an issued token (issued at a non-negative time) no longer verifies. */
  lemma IssuedTokenExpires(c: Crypto, userId: int, username: string, now: int, later: int)
    requires SignatureRoundTrip(c)
    requires Generate(c, userId, username, now).Some?
    requires 0 <= now && now + Lifetime < later
    ensures Verify(c, Generate(c, userId, username, now).value, later).None?
  {
    var cl := IssueClaims(userId, username, now);
    assert c.parse(c.sign(cl).value) == Some(cl);
  }
}

=== FILE: votes.dfy ===
/**
  One user's reaction to one topic, stored as rows (user, topic, liked) of the
  vote table. The like and dislike handlers read the pair's row and then
  insert, update or delete it; this module models those statements on a
  sequence of rows and proves that they implement a three-state toggle that
  keeps at most one row per pair and touches no other pair.
*/
module Votes {
  import opened Wrappers

  datatype Vote = NoVote | Liked | Disliked

  datatype Action = Like | Dislike

  datatype VoteRow = VoteRow(userId: int, topicId: int, liked: bool)

  /** The vote an action sets when it does not retract one. */
  function Target(a: Action): Vote {
    if a == Like then Liked else Disliked
  }

  /** The vote a stored liked flag stands for. */
  function VoteOf(liked: bool): Vote {
    if liked then Liked else Disliked
  }

  /**
    The reference toggle: an action sets its vote, replacing the opposite one,
    and pressing the vote already held retracts it.
  */
  function Toggle(a: Action, v: Vote): (r: Vote)
    ensures r == NoVote <==> v == Target(a)
    ensures r != NoVote ==> r == Target(a)
  {
    match (a, v)
    case (Like, NoVote) => Liked
    case (Like, Disliked) => Liked
    case (Like, Liked) => NoVote
    case (Dislike, NoVote) => Disliked
    case (Dislike, Liked) => Disliked
    case (Dislike, Disliked) => NoVote
  }

  // ---------------------------------------------------------------------------
  // The vote table and the statements the handlers issue on it.
  // ---------------------------------------------------------------------------

  predicate IsPair(r: VoteRow, u: int, t: int) {
    r.userId == u && r.topicId == t
  }

  /** Number of rows stored for the pair (u, t). */
  function PairCount(rows: seq<VoteRow>, u: int, t: int): nat {
    if |rows| == 0 then 0
    else (if IsPair(rows[0], u, t) then 1 else 0) + PairCount(rows[1..], u, t)
  }

  /** At most one row for every (user, topic) pair. */
  ghost predicate AtMostOnePerPair(rows: seq<VoteRow>) {
    forall u, t :: PairCount(rows, u, t) <= 1
  }

  /** `SELECT liked ... WHERE user_id = u AND topic_id = t`: the first such row's flag. */
  function Lookup(rows: seq<VoteRow>, u: int, t: int): (r: Option<bool>)
    ensures r.None? <==> PairCount(rows, u, t) == 0
    ensures r.Some? ==> exists i :: 0 <= i < |rows| && IsPair(rows[i], u, t) && rows[i].liked == r.value
  {
    if |rows| == 0 then None
    else if IsPair(rows[0], u, t) then Some(rows[0].liked)
    else
      var r := Lookup(rows[1..], u, t);
      assert r.Some? ==> exists i :: 1 <= i < |rows| && IsPair(rows[i], u, t) && rows[i].liked == r.value by {
        if r.Some? {
          var i :| 0 <= i < |rows[1..]| && IsPair(rows[1..][i], u, t) && rows[1..][i].liked == r.value;
          assert rows[i + 1] == rows[1..][i];
        }
      }
      r
  }

  /** The pair's current state as the handlers read it. */
  function Current(rows: seq<VoteRow>, u: int, t: int): Vote {
    match Lookup(rows, u, t)
    case None => NoVote
    case Some(liked) => VoteOf(liked)
  }

  /** `DELETE ... WHERE user_id = u AND topic_id = t`; also: all rows of other pairs. */
  function Without(rows: seq<VoteRow>, u: int, t: int): (r: seq<VoteRow>)
    ensures |r| <= |rows|
    ensures PairCount(r, u, t) == 0
  {
    if |rows| == 0 then []
    else if IsPair(rows[0], u, t) then Without(rows[1..], u, t)
    else [rows[0]] + Without(rows[1..], u, t)
  }

  /** `UPDATE ... SET liked = b WHERE user_id = u AND topic_id = t`. */
  function SetLiked(rows: seq<VoteRow>, u: int, t: int, b: bool): (r: seq<VoteRow>)
    ensures |r| == |rows|
  {
    if |rows| == 0 then []
    else [if IsPair(rows[0], u, t) then rows[0].(liked := b) else rows[0]] + SetLiked(rows[1..], u, t, b)
  }

  /**
    The statement a like (or dislike) by user u on topic t runs: delete the
    row holding the same vote, flip the row holding the opposite one, or
    insert a row when the pair has none.
  */
  function Apply(rows: seq<VoteRow>, a: Action, u: int, t: int): seq<VoteRow> {
    var flag := a == Like;
    match Lookup(rows, u, t)
    case Some(liked) =>
      if liked == flag then Without(rows, u, t) else SetLiked(rows, u, t, flag)
    case None => rows + [VoteRow(u, t, flag)]
  }

  // ---------------------------------------------------------------------------
  // Facts about the single statements.
  // ---------------------------------------------------------------------------

  lemma {:induction false} WithoutOtherCount(rows: seq<VoteRow>, u: int, t: int, u': int, t': int)
    requires u != u' || t != t'
    ensures PairCount(Without(rows, u, t), u', t') == PairCount(rows, u', t')
    decreases |rows|
  {
    if 0 < |rows| {
      WithoutOtherCount(rows[1..], u, t, u', t');
    }
  }

  lemma {:induction false} WithoutOtherLookup(rows: seq<VoteRow>, u: int, t: int, u': int, t': int)
    requires u != u' || t != t'
    ensures Lookup(Without(rows, u, t), u', t') == Lookup(rows, u', t')
    decreases |rows|
  {
    if 0 < |rows| {
      WithoutOtherLookup(rows[1..], u, t, u', t');
    }
  }

  lemma {:induction false} WithoutOfAbsent(rows: seq<VoteRow>, u: int, t: int)
    requires PairCount(rows, u, t) == 0
    ensures Without(rows, u, t) == rows
    decreases |rows|
  {
    if 0 < |rows| {
      WithoutOfAbsent(rows[1..], u, t);
      assert rows == [rows[0]] + rows[1..];
    }
  }

  lemma {:induction false} WithoutTwice(rows: seq<VoteRow>, u: int, t: int)
    ensures Without(Without(rows, u, t), u, t) == Without(rows, u, t)
  {
    WithoutOfAbsent(Without(rows, u, t), u, t);
  }

  lemma {:induction false} SetLikedCounts(rows: seq<VoteRow>, u: int, t: int, b: bool, u': int, t': int)
    ensures PairCount(SetLiked(rows, u, t, b), u', t') == PairCount(rows, u', t')
    decreases |rows|
  {
    if 0 < |rows| {
      SetLikedCounts(rows[1..], u, t, b, u', t');
    }
  }

  lemma {:induction false} SetLikedLookup(rows: seq<VoteRow>, u: int, t: int, b: bool, u': int, t': int)
    ensures Lookup(SetLiked(rows, u, t, b), u', t') ==
              if u == u' && t == t' && Lookup(rows, u, t).Some? then Some(b) else Lookup(rows, u', t')
    decreases |rows|
  {
    if 0 < |rows| {
      SetLikedLookup(rows[1..], u, t, b, u', t');
    }
  }

  lemma {:induction false} SetLikedWithout(rows: seq<VoteRow>, u: int, t: int, b: bool)
    ensures Without(SetLiked(rows, u, t, b), u, t) == Without(rows, u, t)
    decreases |rows|
  {
    if 0 < |rows| {
      SetLikedWithout(rows[1..], u, t, b);
    }
  }

  lemma {:induction false} AppendCount(rows: seq<VoteRow>, x: VoteRow, u: int, t: int)
    ensures PairCount(rows + [x], u, t) == PairCount(rows, u, t) + (if IsPair(x, u, t) then 1 else 0)
    decreases |rows|
  {
    if 0 < |rows| {
      assert (rows + [x])[1..] == rows[1..] + [x];
      AppendCount(rows[1..], x, u, t);
    } else {
      assert rows + [x] == [x];
    }
  }

  lemma {:induction false} AppendLookup(rows: seq<VoteRow>, x: VoteRow, u: int, t: int)
    ensures Lookup(rows + [x], u, t) ==
              if Lookup(rows, u, t).Some? then Lookup(rows, u, t)
              else if IsPair(x, u, t) then Some(x.liked) else None
    decreases |rows|
  {
    if 0 < |rows| {
      assert (rows + [x])[1..] == rows[1..] + [x];
      AppendLookup(rows[1..], x, u, t);
    } else {
      assert rows + [x] == [x];
    }
  }

  lemma {:induction false} AppendWithout(rows: seq<VoteRow>, x: VoteRow, u: int, t: int)
    requires IsPair(x, u, t)
    ensures Without(rows + [x], u, t) == Without(rows, u, t)
    decreases |rows|
  {
    if 0 < |rows| {
      assert (rows + [x])[1..] == rows[1..] + [x];
      AppendWithout(rows[1..], x, u, t);
    } else {
      assert rows + [x] == [x];
    }
  }

  // ---------------------------------------------------------------------------
  // The handlers' statement choice implements the toggle.
  // ---------------------------------------------------------------------------

  /** The row-level statement moves the pair exactly as the reference toggle does. */
  lemma ApplyFollowsToggle(rows: seq<VoteRow>, a: Action, u: int, t: int)
    ensures Current(Apply(rows, a, u, t), u, t) == Toggle(a, Current(rows, u, t))
  {
    var flag := a == Like;
    match Lookup(rows, u, t)
    case Some(liked) =>
      if liked != flag {
        SetLikedLookup(rows, u, t, flag, u, t);
      }
    case None =>
      AppendLookup(rows, VoteRow(u, t, flag), u, t);
  }

  /** Every row of every other pair stays, in the same order. */
  lemma ApplyKeepsOtherRows(rows: seq<VoteRow>, a: Action, u: int, t: int)
    ensures Without(Apply(rows, a, u, t), u, t) == Without(rows, u, t)
  {
    var flag := a == Like;
    match Lookup(rows, u, t)
    case Some(liked) =>
      if liked == flag {
        WithoutTwice(rows, u, t);
      } else {
        SetLikedWithout(rows, u, t, flag);
      }
    case None =>
      AppendWithout(rows, VoteRow(u, t, flag), u, t);
  }

  /** No other pair's vote or row count changes. */
  lemma ApplyKeepsOtherPairs(rows: seq<VoteRow>, a: Action, u: int, t: int, u': int, t': int)
    requires u != u' || t != t'
    ensures Current(Apply(rows, a, u, t), u', t') == Current(rows, u', t')
    ensures PairCount(Apply(rows, a, u, t), u', t') == PairCount(rows, u', t')
  {
    var flag := a == Like;
    match Lookup(rows, u, t)
    case Some(liked) =>
      if liked == flag {
        WithoutOtherLookup(rows, u, t, u', t');
        WithoutOtherCount(rows, u, t, u', t');
      } else {
        SetLikedLookup(rows, u, t, flag, u', t');
        SetLikedCounts(rows, u, t, flag, u', t');
      }
    case None =>
      AppendLookup(rows, VoteRow(u, t, flag), u', t');
      AppendCount(rows, VoteRow(u, t, flag), u', t');
  }

  /** A row is inserted only when the pair has none. */
  lemma ApplyInsertsOnlyWhenAbsent(rows: seq<VoteRow>, a: Action, u: int, t: int)
    ensures |Apply(rows, a, u, t)| > |rows| <==> PairCount(rows, u, t) == 0
    ensures |Apply(rows, a, u, t)| > |rows| ==> Apply(rows, a, u, t) == rows + [VoteRow(u, t, a == Like)]
  {
  }

  /** The pair keeps at most one row. */
  lemma ApplyKeepsPairSingle(rows: seq<VoteRow>, a: Action, u: int, t: int)
    requires PairCount(rows, u, t) <= 1
    ensures PairCount(Apply(rows, a, u, t), u, t) <= 1
  {
    var flag := a == Like;
    match Lookup(rows, u, t)
    case Some(liked) =>
      if liked != flag {
        SetLikedCounts(rows, u, t, flag, u, t);
      }
    case None =>
      AppendCount(rows, VoteRow(u, t, flag), u, t);
  }

  lemma ApplyPreservesAtMostOne(rows: seq<VoteRow>, a: Action, u: int, t: int)
    requires AtMostOnePerPair(rows)
    ensures AtMostOnePerPair(Apply(rows, a, u, t))
  {
    forall u', t' ensures PairCount(Apply(rows, a, u, t), u', t') <= 1 {
      if u == u' && t == t' {
        ApplyKeepsPairSingle(rows, a, u, t);
      } else {
        ApplyKeepsOtherPairs(rows, a, u, t, u', t');
      }
    }
  }

  /** From no vote, the same action twice restores the table exactly. */
  lemma ApplyTwiceFromNoVote(rows: seq<VoteRow>, a: Action, u: int, t: int)
    requires Current(rows, u, t) == NoVote
    ensures Apply(Apply(rows, a, u, t), a, u, t) == rows
  {
    var x := VoteRow(u, t, a == Like);
    assert Apply(rows, a, u, t) == rows + [x];
    AppendLookup(rows, x, u, t);
    AppendWithout(rows, x, u, t);
    WithoutOfAbsent(rows, u, t);
  }

  // ---------------------------------------------------------------------------
  // Sequences of actions.
  // ---------------------------------------------------------------------------

  function ToggleAll(acts: seq<Action>, v: Vote): Vote
    decreases |acts|
  {
    if |acts| == 0 then v else ToggleAll(acts[1..], Toggle(acts[0], v))
  }

  function ApplyAll(rows: seq<VoteRow>, acts: seq<Action>, u: int, t: int): seq<VoteRow>
    decreases |acts|
  {
    if |acts| == 0 then rows else ApplyAll(Apply(rows, acts[0], u, t), acts[1..], u, t)
  }

  /**
    Any run of likes and dislikes by one user on one topic follows the toggle,
    keeps at most one row per pair, and leaves every other pair's rows alone.
  */
  lemma {:induction false} ApplyAllFollowsToggle(rows: seq<VoteRow>, acts: seq<Action>, u: int, t: int)
    requires AtMostOnePerPair(rows)
    ensures Current(ApplyAll(rows, acts, u, t), u, t) == ToggleAll(acts, Current(rows, u, t))
    ensures AtMostOnePerPair(ApplyAll(rows, acts, u, t))
    ensures Without(ApplyAll(rows, acts, u, t), u, t) == Without(rows, u, t)
    decreases |acts|
  {
    if 0 < |acts| {
      ApplyFollowsToggle(rows, acts[0], u, t);
      ApplyPreservesAtMostOne(rows, acts[0], u, t);
      ApplyKeepsOtherRows(rows, acts[0], u, t);
      ApplyAllFollowsToggle(Apply(rows, acts[0], u, t), acts[1..], u, t);
    }
  }

  /** Liking (or disliking) twice from no vote returns to no vote. */
  lemma DoublePressRetracts(a: Action)
    ensures ToggleAll([a, a], NoVote) == NoVote
  {
    assert [a, a][1..] == [a];
    assert [a][1..] == [];
    assert ToggleAll([a], Target(a)) == ToggleAll([], NoVote);
  }

  // ---------------------------------------------------------------------------
  // Likes and dislikes of a topic are row counts.
  // ---------------------------------------------------------------------------

  /** `SELECT COUNT(*) ... WHERE topic_id = t AND liked = b`. */
  function Tally(rows: seq<VoteRow>, t: int, b: bool): nat {
    if |rows| == 0 then 0
    else (if rows[0].topicId == t && rows[0].liked == b then 1 else 0) + Tally(rows[1..], t, b)
  }

  /** Rows of the pair (u, t) holding flag b. */
  function PairTally(rows: seq<VoteRow>, u: int, t: int, b: bool): nat {
    if |rows| == 0 then 0
    else (if IsPair(rows[0], u, t) && rows[0].liked == b then 1 else 0) + PairTally(rows[1..], u, t, b)
  }

  lemma {:induction false} TallySplit(rows: seq<VoteRow>, u: int, t: int, t': int, b: bool)
    ensures Tally(rows, t', b) == Tally(Without(rows, u, t), t', b) + (if t == t' then PairTally(rows, u, t, b) else 0)
    decreases |rows|
  {
    if 0 < |rows| {
      TallySplit(rows[1..], u, t, t', b);
    }
  }

  lemma {:induction false} PairTallyOfSingle(rows: seq<VoteRow>, u: int, t: int, b: bool)
    requires PairCount(rows, u, t) <= 1
    ensures PairTally(rows, u, t, b) == if Current(rows, u, t) == VoteOf(b) then 1 else 0
    decreases |rows|
  {
    if 0 < |rows| {
      PairTallyOfSingle(rows[1..], u, t, b);
      if IsPair(rows[0], u, t) {
        PairTallyOfAbsent(rows[1..], u, t, b);
      }
    }
  }

  lemma {:induction false} PairTallyOfAbsent(rows: seq<VoteRow>, u: int, t: int, b: bool)
    requires PairCount(rows, u, t) == 0
    ensures PairTally(rows, u, t, b) == 0
    decreases |rows|
  {
    if 0 < |rows| {
      PairTallyOfAbsent(rows[1..], u, t, b);
    }
  }

  /**
    With at most one row per pair, an action moves the topic's count for flag b
    by one for the vote it removes and one for the vote it adds, and leaves the
    counts of every other topic alone. A like therefore moves likes + dislikes
    by +1 (insert), 0 (flip) or -1 (retract).
  */
  lemma ApplyTallyDelta(rows: seq<VoteRow>, a: Action, u: int, t: int, t': int, b: bool)
    requires PairCount(rows, u, t) <= 1
    ensures t' != t ==> Tally(Apply(rows, a, u, t), t', b) == Tally(rows, t', b)
    ensures t' == t ==>
              Tally(Apply(rows, a, u, t), t, b) + (if Current(rows, u, t) == VoteOf(b) then 1 else 0)
              == Tally(rows, t, b) + (if Toggle(a, Current(rows, u, t)) == VoteOf(b) then 1 else 0)
  {
    var rows' := Apply(rows, a, u, t);
    TallySplit(rows, u, t, t', b);
    TallySplit(rows', u, t, t', b);
    ApplyKeepsOtherRows(rows, a, u, t);
    ApplyKeepsPairSingle(rows, a, u, t);
    ApplyFollowsToggle(rows, a, u, t);
    PairTallyOfSingle(rows, u, t, b);
    PairTallyOfSingle(rows', u, t, b);
  }
}

=== FILE: wrappers.dfy ===
/** Optional values: a row that may be missing, a parse that may fail. */
module Wrappers {

  datatype Option<+T> = None | Some(value: T)
}
